=== FILE: README.md ===
# Storefront core in Dafny

A model of the shopping logic of a small React storefront backed by a hosted
Postgres database. It covers:

- the static product catalogue and its three queries;
- the product listing, with its category list and its filter, search and sort pipeline;
- the product page, with the route lookup and the quantity selector;
- the quantity buttons of a cart line;
- checkout: composing the order and the double-submit guard;
- the order service, which writes an order in three inserts with a fallback, and its two lookups;
- order tracking: the searched id and the fixed timeline;
- the sign-in page's schemas and its loading/error state;
- the rules of the admin product and order consoles.

Every operation is a pure function over immutable values. The database is a
`Store` value holding three tables (`orders`, `order_items` and `shipping`).
Everything the program obtains from the outside world is a parameter:

- the result of each insert and query;
- the generated uuid and the `Math.random` draws;
- the clock;
- `parseFloat`, the e-mail check and the authentication result.

Money is `real`, so arithmetic is exact.

Modules, following the program's files:

| module | file of the program |
|---|---|
| `Wrappers`, `Seqs`, `Text` | helpers: `Option`, filtering, subsequences, first-occurrence dedup, case, substring search, split/join, decimal numbers, `parseInt` |
| `Catalogue` | `src/data/products.ts` |
| `Browse` | `src/pages/Products.tsx` |
| `ProductDetail` | `src/pages/ProductDetail.tsx` |
| `CartControls` | `src/components/CartItem.tsx` |
| `Orders` | `src/services/orderService.ts` |
| `Checkout` | `src/pages/Checkout.tsx` |
| `Tracking` | `src/pages/OrderTracking.tsx` |
| `AuthForm` | `src/pages/Auth.tsx` |
| `AdminProducts` | `src/components/AdminProductManagement.tsx` |
| `AdminOrders` | `src/components/AdminOrderManagement.tsx` |

Two behaviours of the code shape the model:

- `createOrder` catches every failure and returns an `ORD…` id. So the
  checkout page always clears the cart and navigates to tracking, even when
  no row was written, and its error branch is unreachable.
- The tracking page performs no lookup. It shows four fixed mock steps for any id.

## Model

| member | source | states |
|---|---|---|
| Catalogue.GetProductById | src/data/products.ts:83-85 | the result is present exactly when some product has the id, and it is the first such product |
| Catalogue.GetProductByOwnId | src/data/products.ts:83-85 | with distinct ids, every product is found by its own id (the lookup inverts `id`) |
| Catalogue.GetFeaturedProducts | src/data/products.ts:87-89 | keeps exactly the products whose flag is `true`, in catalogue order; a missing flag is not featured |
| Catalogue.GetProductsByCategory | src/data/products.ts:91-93 | keeps exactly the products of that category, in catalogue order |
| Catalogue.QueriesNeverInvent | src/data/products.ts:83-93 | every product a query returns is a catalogue product |
| Catalogue.StaticCatalogue | src/data/products.ts:12-81 | the shipped catalogue has eight products with distinct ids 1..8, so id 0 finds nothing |
| Seqs.Filter | src/pages/Products.tsx:27 | a filter keeps each element meeting the predicate as many times as the input holds it, drops all others, and keeps the input's order (a subsequence) |
| Seqs.FilterAppend | src/pages/Products.tsx:27 | filtering distributes over concatenation |
| Seqs.Distinct | src/pages/Products.tsx:20 | `new Set` spread: the same members, each once |
| Seqs.DistinctFirstOccurrenceOrder | src/pages/Products.tsx:20 | the deduplicated list is ordered by first occurrence, as a `Set` iterates |
| Browse.Categories | src/pages/Products.tsx:20 | 'All' first, then every catalogue category exactly once and nothing else |
| Browse.CategoriesInFirstOccurrenceOrder | src/pages/Products.tsx:20 | after 'All' the categories appear in the order of their first product |
| Browse.InitialCategory | src/pages/Products.tsx:12-16 | a non-empty URL category is preselected; otherwise 'All' |
| Browse.ByCategory | src/pages/Products.tsx:26-28 | for a real selection, exactly the products of that category, each as often as listed, in order; for '' or 'All', the catalogue unchanged |
| Browse.BySearch | src/pages/Products.tsx:31-36 | an empty term keeps everything; otherwise keeps the products whose lower-cased name or description contains the lower-cased term |
| Browse.ParseSortKey | src/pages/Products.tsx:39-47 | exactly the four select values choose a comparator; any other value leaves the order alone |
| Browse.BeforeTotal | src/pages/Products.tsx:39-46 | every comparator orders any two products one way or the other |
| Browse.BeforeTransitive | src/pages/Products.tsx:39-46 | every comparator is transitive, so a sorted result is well defined |
| Browse.SortBy | src/pages/Products.tsx:39-46 | the sort returns a permutation of its input, ordered by the chosen comparator |
| Browse.SelectionMembers | src/pages/Products.tsx:23-36 | a list holding each selected product as often as the catalogue does contains every selected product and only selected ones |
| Browse.FilteredIsSelection | src/pages/Products.tsx:23-36 | the two filter steps keep exactly the products matching both the category and the term, with their multiplicities, in catalogue order |
| Browse.Query | src/pages/Products.tsx:22-50 | the listing holds every selected product as often as the catalogue does and nothing else; it is sorted when a sort key is chosen and in catalogue order otherwise |
| Text.ContainsIff | src/pages/Products.tsx:33-34 | `includes` holds exactly when the needle occurs at some offset |
| Text.LowerIdempotent | src/pages/Products.tsx:33-34 | lower-casing twice is lower-casing once |
| Text.StrLeTotal | src/pages/Products.tsx:44-46 | the name order compares any two names |
| Text.StrLeTransitive | src/pages/Products.tsx:44-46 | the name order is transitive |
| Text.StrLeAntisymmetric | src/pages/Products.tsx:44-46 | names that compare both ways are equal |
| Text.JoinSplit | src/pages/Checkout.tsx:49-51 | joining the pieces of a split with the same separator rebuilds the string |
| Text.SplitPiecesFree | src/pages/Checkout.tsx:49 | no piece of a split contains the separator |
| Text.RestOfSplit | src/pages/Checkout.tsx:49-51 | the pieces after the first, rejoined, are exactly the text after the first separator |
| Text.DecimalRoundTrip | src/services/orderService.ts:68 | the decimal text of a number reads back as that number |
| Text.ParseIntRoundTrip | src/pages/ProductDetail.tsx:13 | `parseInt` of the decimal text of any integer gives that integer |
| ProductDetail.RouteKey | src/pages/ProductDetail.tsx:13 | a missing or empty route id reads as 0; any other id is read by `parseInt` |
| ProductDetail.RouteProduct | src/pages/ProductDetail.tsx:12-33 | a product is shown exactly when the parsed route id is a number some catalogue product carries, and it is the first such product; an unparsable id shows the not-found view |
| ProductDetail.RouteOfOwnId | src/pages/ProductDetail.tsx:12-13 | the route carrying a product's own id shows that product |
| ProductDetail.MissingRouteNotFound | src/pages/ProductDetail.tsx:13-33 | with no id in the route the shipped catalogue shows the not-found view |
| ProductDetail.TypedQuantity | src/pages/ProductDetail.tsx:84 | typed text gives its positive integer value; anything unparsable, zero or negative gives 1 |
| ProductDetail.TypedRoundTrip | src/pages/ProductDetail.tsx:84 | typing a positive quantity selects exactly it |
| ProductDetail.Apply | src/pages/ProductDetail.tsx:75-89 | minus subtracts one but stops at 1, plus adds one, typing selects the typed quantity as `TypedQuantity` reads it |
| ProductDetail.Run | src/pages/ProductDetail.tsx:15 | from the initial 1, the selected quantity stays at least 1 under any sequence of controls |
| ProductDetail.MinusUndoesPlus | src/pages/ProductDetail.tsx:75-89 | minus right after plus restores the previous quantity |
| ProductDetail.AddToCart | src/pages/ProductDetail.tsx:35-37 | adds only a found product, with the selected quantity (at least 1) |
| CartControls.Increment | src/components/CartItem.tsx:18-20 | asks for one more of the same line |
| CartControls.Decrement | src/components/CartItem.tsx:22-28 | removes the line exactly when its quantity is at most 1; otherwise asks for one less, which is still positive |
| CartControls.Remove | src/components/CartItem.tsx:30-32 | removes the line whatever its quantity |
| CartControls.DecrementUndoesIncrement | src/components/CartItem.tsx:18-28 | minus after plus asks for the original quantity |
| CartControls.LineTotal | src/components/CartItem.tsx:74 | the line amount is never negative for a non-negative price and quantity, and one unit costs the unit price |
| CartControls.LineTotalStep | src/components/CartItem.tsx:74 | each extra unit adds one unit price to the line amount |
| Orders.RandomBelow | src/services/orderService.ts:68 | the floor of a draw in [0, 1) times a bound is below the bound |
| Orders.TrackingNumber | src/services/orderService.ts:68 | a tracking number is 'TRK' then the decimal form, without leading zeros, of a number below 10^8 |
| Orders.FallbackOrderId | src/services/orderService.ts:87 | a fallback id is 'ORD' then the digits of a number below 10^7 |
| Orders.OrderRowOf | src/services/orderService.ts:33-43 | the inserted order row carries the generated id and, with the cart lines, reassembles to exactly the order argument |
| Orders.ItemRows | src/services/orderService.ts:51-56 | one item row per cart line, in order, with the new order's id, the product id as text, the quantity and the unit price |
| Orders.ItemsSubtotalMatchesCart | src/services/orderService.ts:51-56 | the stored price snapshots add up to the cart subtotal |
| Orders.Fallback | src/services/orderService.ts:83-90 | the fallback answer is an 'ORD' id below 10^7 and a well-formed tracking number |
| Orders.CreateOrder | src/services/orderService.ts:27-91 | each table grows by exactly its new rows, and only if every earlier insert succeeded; on full success the uuid is returned, otherwise an 'ORD' id; the tracking number is always well formed |
| Orders.CreateOrderSequencing | src/services/orderService.ts:30-80 | the inserts are ordered and never undone, and every new row carries the one generated id |
| Orders.GetOrderByTrackingId | src/services/orderService.ts:93-113 | a result exists exactly when one shipping row with that number joins an order; it is that row and its order |
| Orders.GetOrderById | src/services/orderService.ts:115-135 | a result exists exactly when one order has the id; it carries every item row of that order as many times as the table holds it, and no other row |
| Orders.TrackingLookupAfterCreate | src/services/orderService.ts:27-113 | after a successful create into a store without that id or number, the returned tracking number finds the new shipping row and order |
| Orders.IdLookupAfterCreate | src/services/orderService.ts:27-135 | after a successful create, looking up the returned id finds the order with exactly its new item rows (in table order, see below) |
| Orders.NewOrderFound | src/services/orderService.ts:30-48 | once its insert succeeds, an order with a fresh id is the only order with that id |
| Orders.NewShippingFound | src/services/orderService.ts:67-80 | after full success, the new shipping row is the only one with its tracking number |
| Orders.OrphanedOrder | src/services/orderService.ts:30-65 | the writes are not atomic: if the items insert fails, the order is still found, with no items |
| Orders.DeliveryIsFiveDays | src/services/orderService.ts:74 | the promised delivery is 432,000,000 ms (five days) after creation |
| Checkout.SplitName | src/pages/Checkout.tsx:49-51 | the first name has no space; the last name is what follows the first space, or '-' when that is empty; the two rejoin to the typed name |
| Checkout.Total | src/pages/Checkout.tsx:63 | the total is the subtotal plus 8% tax, never below a non-negative subtotal |
| Checkout.ComposeOrder | src/pages/Checkout.tsx:54-64 | the order carries the split name, the form's e-mail and address, the fixed city/zip/country, the cart lines and the taxed total |
| Checkout.OrderTotalMatchesItems | src/pages/Checkout.tsx:63 | when the cart total is the sum of its lines, the stored total is the stored items' sum plus 8% |
| Checkout.Render | src/pages/Checkout.tsx:90-95 | the page redirects home exactly when the cart is empty |
| Checkout.BeginSubmit | src/pages/Checkout.tsx:43-45 | a submission in flight makes a press do nothing; otherwise the press is marked in flight and composes the order |
| Checkout.FinishSubmit | src/pages/Checkout.tsx:66-86 | after `createOrder` returns the cart is empty, nothing is in flight, and the page goes to the returned id |
| Checkout.HandleSubmit | src/pages/Checkout.tsx:40-87 | the browser blocks a press while a required field is empty or the e-mail is malformed; a press while in flight changes nothing; otherwise the cart is cleared whatever the inserts did, the order row is written when its insert succeeds, the store is exactly what `createOrder` leaves, every table included, and the page always goes to the id `createOrder` returns: the uuid on full success, the `ORD` fallback otherwise |
| Checkout.DoubleSubmitIgnored | src/pages/Checkout.tsx:43-45 | a second press during the first never reaches `createOrder` |
| Tracking.Timeline | src/pages/OrderTracking.tsx:24-52 | four steps, in the order confirmed, processed, shipped, out for delivery |
| Tracking.TimelineShape | src/pages/OrderTracking.tsx:24-52 | confirmed and processed are completed, shipped is current, out for delivery is upcoming and the only undated step; the dated steps are a day apart |
| Tracking.Type | src/pages/OrderTracking.tsx:77 | typing replaces the input text and leaves the searched id alone |
| Tracking.Init | src/pages/OrderTracking.tsx:19-21 | the id handed over by checkout starts out searched; the input starts empty |
| Tracking.Submit | src/pages/OrderTracking.tsx:54-57 | an empty required input blocks the submit; the input itself is never changed |
| Tracking.SubmitSearchesTyped | src/pages/OrderTracking.tsx:54-80 | blocked or not, afterwards the searched id is the typed text, so a second submit changes nothing |
| Tracking.TypeAndSubmit | src/pages/OrderTracking.tsx:54-94 | typing a non-empty id and submitting shows the panel headed by exactly that id |
| Tracking.EmptySubmitHidesPanel | src/pages/OrderTracking.tsx:80-91 | once something is searched the input is optional, and submitting it empty hides the panel |
| Tracking.Panel | src/pages/OrderTracking.tsx:91-94 | the result panel appears exactly when a non-empty id has been searched, and is headed by that id |
| Tracking.EstimatedDelivery | src/pages/OrderTracking.tsx:95 | the estimate is the service's five-day delivery delay after the instant read, later than every dated timeline step |
| Tracking.EstimateMatchesShippingRow | src/pages/OrderTracking.tsx:95 | read when the order is placed, the panel's five-day estimate is the delivery instant the order service stores |
| AuthForm.LoginIssues | src/pages/Auth.tsx:17-20 | an e-mail issue exactly when the address is invalid, and a password issue exactly when it is shorter than 6 |
| AuthForm.RegisterIssues | src/pages/Auth.tsx:22-27 | the login issues first; then a confirmation issue exactly when it is shorter than 6, and a mismatch exactly when the two passwords differ; the length issue comes right after the login issues, and nothing else is reported |
| AuthForm.FirstMessage | src/pages/Auth.tsx:195-205 | a field shows no message exactly when it has no issue; otherwise the message of its earliest issue |
| AuthForm.ConfirmationMessage | src/pages/Auth.tsx:22-27 | the confirmation field shows the length message when the confirmation is shorter than 6, even if the passwords also differ; the mismatch message only for a long enough confirmation; nothing when they agree |
| AuthForm.RegisterAccepts | src/pages/Auth.tsx:17-27 | a registration passes exactly when all three rules hold, and then it also passes the login schema |
| AuthForm.RedirectTarget | src/pages/Auth.tsx:38 | the page the visitor came from, or '/' when there is none |
| AuthForm.Render | src/pages/Auth.tsx:89-92 | a signed-in visitor is redirected exactly there; everyone else sees the tabs |
| AuthForm.Login | src/pages/Auth.tsx:63-74 | an invalid form changes nothing; otherwise loading ends false, the login error is set exactly when the service returns an error, and the register error is untouched |
| AuthForm.Register | src/pages/Auth.tsx:76-87 | the same for registration, leaving the login error untouched |
| AuthForm.OnSearchChange | src/pages/Auth.tsx:58-61 | the effect clears both errors and leaves loading as it is |
| AuthForm.AfterNavigation | src/pages/Auth.tsx:58-61 | the errors are cleared exactly when the URL query string changed; otherwise nothing changes |
| AuthForm.SwitchTabAsWritten | src/pages/Auth.tsx:57-61 | a tab switch leaves the query string alone, so both errors survive it |
| AuthForm.StaleErrorAfterTabSwitch | src/pages/Auth.tsx:57-61 | a rejected sign-in followed by a switch away and back still shows the login error |
| AuthForm.SwitchTab | src/pages/Auth.tsx:57 | the intended switch: both alerts are gone afterwards and loading is untouched |
| AuthForm.SwitchTabClearsStaleError | src/pages/Auth.tsx:57 | with the intended switch no sign-in error survives a switch away and back |
| AuthForm.RetryClearsLoginError | src/pages/Auth.tsx:63-74 | a successful retry after a failed sign-in leaves no error |
| AdminProducts.AddProduct | src/components/AdminProductManagement.tsx:101-121 | no request exactly when name, description, price or category is empty; otherwise the form's fields, the parsed price, and the placeholder image when none is given |
| AdminProducts.NonNumericPriceIsSent | src/components/AdminProductManagement.tsx:102-114 | the handler checks the price text only for emptiness: a filled-in form whose price text does not parse still sends a create, with NaN as the price (the page's number input keeps such text out) |
| AdminProducts.OnCreateSuccess | src/components/AdminProductManagement.tsx:37-52 | the form is hidden and reset; editing is untouched |
| AdminProducts.ResetFormIsRejected | src/components/AdminProductManagement.tsx:43-51 | the reset form cannot be submitted until it is filled in again |
| AdminProducts.OnUpdateSuccess | src/components/AdminProductManagement.tsx:65-72 | leaves edit mode and changes nothing else |
| AdminProducts.SaveEdit | src/components/AdminProductManagement.tsx:127-140 | no request when not editing; otherwise an update of the edited product's id |
| AdminProducts.SaveEditWritesEditedProduct | src/components/AdminProductManagement.tsx:127-140 | applying the update to the stored row gives back exactly the edited product |
| AdminProducts.DeleteProduct | src/components/AdminProductManagement.tsx:142-146 | a delete of that id is sent exactly when the user confirms |
| AdminOrders.StatusIcon | src/components/AdminOrderManagement.tsx:61-74 | package, truck and check mark each for exactly one status; every other status gets the clock |
| AdminOrders.StatusColor | src/components/AdminOrderManagement.tsx:76-89 | the gray default exactly for statuses outside the four known ones |
| AdminOrders.StatusColorClassifies | src/components/AdminOrderManagement.tsx:76-89 | the four known statuses get four distinct non-gray badges; every other status, 'cancelled' included, is gray |
| AdminOrders.StatusIconClassifies | src/components/AdminOrderManagement.tsx:61-74 | the known statuses get distinct icons; an unknown status looks like 'pending' |
| AdminOrders.StatusLabel | src/components/AdminOrderManagement.tsx:143 | same length, first letter upper-cased, the rest unchanged, and equal to the status ignoring case |
| AdminOrders.IdPrefix | src/components/AdminOrderManagement.tsx:129 | the header shows a prefix of the id of length min(8, its length) |
| AdminOrders.ItemAmount | src/components/AdminOrderManagement.tsx:168 | the displayed amount is the cart's line amount for that price and quantity |
| AdminOrders.ItemAmountMatchesCartLine | src/components/AdminOrderManagement.tsx:168 | an item's displayed amount equals the line amount of the cart line it was stored from |
| AdminOrders.ShippingSelector | src/components/AdminOrderManagement.tsx:200-216 | the shipping selector shows exactly when a shipping record exists, and is bound to the first one |
| AdminOrders.SelectorOptions | src/components/AdminOrderManagement.tsx:191-216 | the order selector offers the four known statuses plus 'cancelled'; the shipping selector offers four, with 'in_transit' and no 'pending' |

## Left out

- Database, network, authentication and routing calls are not executed. Their outcomes are parameters: insert/query success flags, the uuid, the authentication result and the route and URL parameters.
- `Math.random` and `Date.now` become parameters: a draw in [0, 1) and a millisecond instant. Date formatting (`toISOString`, `toLocaleDateString`) is not modelled; dates stay as instants.
- Floating point is not modelled. Prices and totals are exact reals, and `toFixed(2)` display rounding is left out.
- `parseFloat` for the admin price is a parameter; `None` stands for NaN. On the page the add form's price input has `type="number"` (AdminProductManagement.tsx:198-199), so the browser keeps its text empty or a valid number and NaN is not reached there; `AdminProducts.NonNumericPriceIsSent` states what `handleAddProduct` itself does with any text.
- AdminProducts.SaveEdit: the edit form's keystroke handlers are not modelled. The price input there (line 275) can put NaN into the edited product, and `SaveEdit` sends whatever the edited product holds.
- Checkout.HandleSubmit: the browser's e-mail syntax check for `type="email"` is a boolean parameter.
- `Text.ParseInt` reads decimal text with optional blanks and sign. It does not model hex or `0x` prefixes, Unicode whitespace, or numbers beyond 2^53.
- Browse.SortBy: `localeCompare` is replaced by code-point order, and the sort's stability is not stated.
- `Text.Lower` and `Text.UpperChar` map ASCII letters only. Full Unicode case mapping is out of scope.
- AuthForm.LoginIssues: whether a string is an e-mail address is a boolean parameter. Lengths are counted in characters, not UTF-16 code units.
- The cart context, the productService and the order status updates (`updateOrderStatus`, `updateShippingStatus`) live in files that are not part of this model. The cart's `totalPrice` is a parameter of checkout.
- The `order_items(*, products(*))` embedding in `getOrderById` is reduced to the item rows. The product join only adds display data.
- Orders.GetOrderById: the query sets no order for the embedded item rows; the model returns them in table order. Only their multiset is promised by the program, so `Orders.IdLookupAfterCreate`'s equality with the cart's order is the model's assumption.
- Toasts, query-cache invalidation, loading spinners and purely presentational markup carry no logic and are left out.
- The tracking page's timeline is a fixed mock; no order status feeds it, and there is no order locator or status updater to model.
- The mock shipping address, contact text and freshly drawn `TRK` number on the tracking panel (lines 138-146) are display-only and left out.
- The button's `disabled={isLoading}` on the sign-in forms is not modelled; each handler is modelled as one complete attempt.

## Findings

| source | as written | input that shows it | evidently intended | confidence | as-written member | corrected member |
|---|---|---|---|---|---|---|
| src/pages/Auth.tsx:57-61 | the errors are cleared only when `location.search` changes, and the uncontrolled tabs never change it | sign in with a rejected password, switch to Register and back: the login error is still shown | clear both errors on every tab switch, as the comment at line 57 says | medium, not executed | AuthForm.StaleErrorAfterTabSwitch | AuthForm.SwitchTabClearsStaleError |

=== FILE: admin_orders.dfy ===
/** Display rules of the admin order console (src/components/AdminOrderManagement.tsx):
    status badges, labels, the id shown in the header, item amounts and the
    option sets of the two status selectors. */
module AdminOrders {
  import opened Wrappers
  import opened Text
  import Orders
  import CartControls

  datatype Icon = Clock | Package | Truck | CheckCircle

  const KnownStatuses: seq<string> := ["pending", "processing", "shipped", "delivered"]

  /** `getStatusIcon`; anything unrecognised shows the clock, like 'pending'. */
  function StatusIcon(status: string): (icon: Icon)
    ensures icon == Package <==> status == "processing"
    ensures icon == Truck <==> status == "shipped"
    ensures icon == CheckCircle <==> status == "delivered"
    ensures icon == Clock <==> status !in KnownStatuses[1..]
  {
    if status == "pending" then Clock
    else if status == "processing" then Package
    else if status == "shipped" then Truck
    else if status == "delivered" then CheckCircle
    else Clock
  }

  const DefaultColor: string := "bg-gray-100 text-gray-800"

  /** `getStatusColor`; anything unrecognised is gray. */
  function StatusColor(status: string): (color: string)
    ensures color == DefaultColor <==> status !in KnownStatuses
  {
    if status == "pending" then "bg-yellow-100 text-yellow-800"
    else if status == "processing" then "bg-blue-100 text-blue-800"
    else if status == "shipped" then "bg-purple-100 text-purple-800"
    else if status == "delivered" then "bg-green-100 text-green-800"
    else DefaultColor
  }

  /** The four known statuses get four different non-gray classes; every other
      status, 'cancelled' included, gets the gray default. */
  lemma StatusColorClassifies(s: string, t: string)
    ensures s in KnownStatuses ==> StatusColor(s) != DefaultColor
    ensures s !in KnownStatuses ==> StatusColor(s) == DefaultColor
    ensures s in KnownStatuses && t in KnownStatuses && s != t ==> StatusColor(s) != StatusColor(t)
    ensures StatusColor("cancelled") == DefaultColor
  {
  }

  /** Only 'pending' and unknown statuses share an icon; the known four are told apart. */
  lemma StatusIconClassifies(s: string, t: string)
    ensures s !in KnownStatuses ==> StatusIcon(s) == StatusIcon("pending")
    ensures s in KnownStatuses && t in KnownStatuses && s != t ==> StatusIcon(s) != StatusIcon(t)
  {
  }

  /** `status.charAt(0).toUpperCase() + status.slice(1)`. */
  function StatusLabel(status: string): (r: string)
    ensures |r| == |status|
    ensures |status| > 0 ==> r[0] == UpperChar(status[0]) && r[1..] == status[1..]
    ensures Lower(r) == Lower(status)
  {
    if |status| == 0 then ""
    else
      var r := [UpperChar(status[0])] + status[1..];
      assert Lower(r)[0] == Lower(status)[0];
      assert forall i :: 1 <= i < |r| ==> r[i] == status[i];
      r
  }

  /** `id.substring(0, 8)`. */
  function IdPrefix(id: string): (r: string)
    ensures |r| == if |id| < 8 then |id| else 8
    ensures IsPrefix(r, id)
  {
    if |id| <= 8 then id else id[..8]
  }

  /** `Number(item.unit_price) * item.quantity`. */
  function ItemAmount(item: Orders.ItemRow): (amount: real)
    ensures amount == CartControls.LineTotal(item.unitPrice, item.quantity)
    ensures item.quantity == 1 ==> amount == item.unitPrice
  {
    item.unitPrice * item.quantity as real
  }

  /** An item row's displayed amount equals the cart line total it was created from. */
  lemma ItemAmountMatchesCartLine(orderId: string, lines: seq<Orders.CartLine>, i: nat)
    requires i < |lines|
    ensures ItemAmount(Orders.ItemRows(orderId, lines)[i]) == CartControls.LineTotal(lines[i].product.price, lines[i].quantity)
  {
  }

  const OrderStatusOptions: seq<string> := ["pending", "processing", "shipped", "delivered", "cancelled"]
  const ShippingStatusOptions: seq<string> := ["processing", "shipped", "in_transit", "delivered"]

  /** The shipping selector appears only when a shipping record exists, bound to the first. */
  function ShippingSelector<S>(shipping: seq<S>): (r: Option<S>)
    ensures r.Some? <==> |shipping| > 0
    ensures r.Some? ==> r.value == shipping[0]
  {
    if |shipping| > 0 then Some(shipping[0]) else None
  }

  /** The order selector offers the four known statuses plus 'cancelled'; the shipping
      selector offers four values, with 'in_transit' instead of 'pending'. */
  lemma SelectorOptions()
    ensures |OrderStatusOptions| == 5 && |ShippingStatusOptions| == 4
    ensures OrderStatusOptions == KnownStatuses + ["cancelled"]
    ensures "in_transit" in ShippingStatusOptions && "pending" !in ShippingStatusOptions
  {
  }
}

=== FILE: admin_products.dfy ===
/** The admin product console (src/components/AdminProductManagement.tsx): the
    add form's validation and defaults, the reset after a successful create,
    the save-edit payload and the confirmation gate on delete. The product
    service calls are represented by the request they would send. */
module AdminProducts {
  import opened Wrappers
  import Catalogue

  /** A product row of the `products` table (its id is a string there). */
  datatype Product = Product(
    id: string,
    name: string,
    description: string,
    price: real,
    category: string,
    image: string,
    featured: Option<bool>)

  /** The add form; the price is still the text typed. */
  datatype NewProductForm = NewProductForm(
    name: string,
    description: string,
    price: string,
    category: string,
    image: string,
    featured: bool)

  const EmptyForm: NewProductForm := NewProductForm("", "", "", "", "", false)

  /** The price sent on create; `None` stands for the NaN that `parseFloat` returns
      for text that does not start with a number. */
  datatype CreateProductData = CreateProductData(
    name: string,
    description: string,
    price: Option<real>,
    category: string,
    image: string,
    featured: bool)

  /** The six editable fields sent by save-edit. */
  datatype UpdateProductData = UpdateProductData(
    name: string,
    description: string,
    price: real,
    category: string,
    image: string,
    featured: Option<bool>)

  datatype Request = Create(data: CreateProductData) | Update(id: string, patch: UpdateProductData) | Delete(id: string)

  predicate MissingRequired(form: NewProductForm) {
    form.name == "" || form.description == "" || form.price == "" || form.category == ""
  }

  /** `handleAddProduct`: no request when a required field is empty; otherwise a
      create with the image defaulted. `parseFloat` is a parameter whose `None` is NaN;
      the price text is only checked for being non-empty, so NaN is sent as is. */
  function AddProduct(form: NewProductForm, parseFloat: string -> Option<real>): (r: Option<Request>)
    ensures r.None? <==> MissingRequired(form)
    ensures r.Some? ==> r.value.Create?
    ensures r.Some? ==> var d := r.value.data;
      && d.name == form.name && d.description == form.description
      && d.category == form.category && d.featured == form.featured
      && d.price == parseFloat(form.price)
      && (form.image == "" ==> d.image == Catalogue.Placeholder)
      && (form.image != "" ==> d.image == form.image)
      && d.image != ""
  {
    if MissingRequired(form) then None
    else
      Some(Create(CreateProductData(
        form.name, form.description, parseFloat(form.price), form.category,
        if form.image == "" then Catalogue.Placeholder else form.image,
        form.featured)))
  }

  /** Component state: the product being edited, whether the add form shows, its fields. */
  datatype State = State(editing: Option<Product>, showAddForm: bool, newProduct: NewProductForm)

  /** The create mutation's `onSuccess`: hide the form and reset it; editing is untouched. */
  function OnCreateSuccess(st: State): (r: State)
    ensures !r.showAddForm && r.newProduct == EmptyForm && r.editing == st.editing
  {
    st.(showAddForm := false, newProduct := EmptyForm)
  }

  /** After a reset the add button is refused until the required fields are filled again. */
  lemma ResetFormIsRejected(st: State, parseFloat: string -> Option<real>)
    ensures AddProduct(OnCreateSuccess(st).newProduct, parseFloat).None?
  {
  }

  /** A filled-in form whose price text is not a number still produces a create request,
      carrying NaN as its price. */
  lemma NonNumericPriceIsSent(form: NewProductForm, parseFloat: string -> Option<real>)
    requires !MissingRequired(form) && parseFloat(form.price).None?
    ensures AddProduct(form, parseFloat).Some? && AddProduct(form, parseFloat).value.data.price.None?
  {
  }

  /** The update mutation's `onSuccess` leaves edit mode. */
  function OnUpdateSuccess(st: State): (r: State)
    ensures r.editing.None? && r.showAddForm == st.showAddForm && r.newProduct == st.newProduct
  {
    st.(editing := None)
  }

  /** The update patch written onto a row. */
  function ApplyUpdate(p: Product, patch: UpdateProductData): Product {
    Product(p.id, patch.name, patch.description, patch.price, patch.category, patch.image, patch.featured)
  }

  /** `handleSaveEdit`: nothing while not editing, otherwise an update of the edited row's id. */
  function SaveEdit(st: State): (r: Option<Request>)
    ensures r.None? <==> st.editing.None?
    ensures r.Some? ==> r.value.Update? && r.value.id == st.editing.value.id
  {
    match st.editing
    case None => None
    case Some(p) => Some(Update(p.id, UpdateProductData(p.name, p.description, p.price, p.category, p.image, p.featured)))
  }

  /** Saving writes back exactly the edited values: applying the patch to the stored
      row with that id yields the edited product. */
  lemma SaveEditWritesEditedProduct(st: State, stored: Product)
    requires st.editing.Some? && stored.id == st.editing.value.id
    ensures ApplyUpdate(stored, SaveEdit(st).value.patch) == st.editing.value
  {
  }

  /** `handleDeleteProduct`: a delete only when the confirmation dialog returned true. */
  function DeleteProduct(id: string, confirmed: bool): (r: Option<Request>)
    ensures r.Some? <==> confirmed
    ensures r.Some? ==> r.value == Delete(id)
  {
    if confirmed then Some(Delete(id)) else None
  }
}

=== FILE: auth_form.dfy ===
/** The sign-in page (src/pages/Auth.tsx): the two form schemas with their
    messages, the redirect for a signed-in user, and the loading/error state
    around a sign-in or sign-up attempt. Whether a string is an e-mail address
    is decided by the schema library and enters as a boolean. */
module AuthForm {
  import opened Wrappers

  const MinPasswordLength: nat := 6

  datatype Field = Email | Password | ConfirmPassword

  datatype Issue = Issue(field: Field, message: string)

  const BadEmail: Issue := Issue(Email, "Valid email is required")
  const ShortPassword: Issue := Issue(Password, "Password must be at least 6 characters")
  const ShortConfirmation: Issue := Issue(ConfirmPassword, "Confirm password is required")
  const Mismatch: Issue := Issue(ConfirmPassword, "Passwords don't match")

  /** The login schema's issues, in field order. */
  function LoginIssues(password: string, emailOk: bool): (r: seq<Issue>)
    ensures BadEmail in r <==> !emailOk
    ensures ShortPassword in r <==> |password| < MinPasswordLength
    ensures forall i :: 0 <= i < |r| ==> r[i] == BadEmail || r[i] == ShortPassword
    ensures r == [] <==> emailOk && |password| >= MinPasswordLength
  {
    (if emailOk then [] else [BadEmail])
    + (if |password| < MinPasswordLength then [ShortPassword] else [])
  }

  /** The register schema extends the login one with the confirmation field and
      then refines on equality; the refinement runs even when a length check
      failed, so its issue accumulates after the others. */
  function RegisterIssues(password: string, confirmation: string, emailOk: bool): (r: seq<Issue>)
    ensures |LoginIssues(password, emailOk)| <= |r|
    ensures r[..|LoginIssues(password, emailOk)|] == LoginIssues(password, emailOk)
    ensures ShortConfirmation in r <==> |confirmation| < MinPasswordLength
    ensures Mismatch in r <==> password != confirmation
    ensures BadEmail in r <==> !emailOk
    ensures ShortPassword in r <==> |password| < MinPasswordLength
    ensures |r| == |LoginIssues(password, emailOk)|
      + (if |confirmation| < MinPasswordLength then 1 else 0)
      + (if password != confirmation then 1 else 0)
    ensures |confirmation| < MinPasswordLength ==> r[|LoginIssues(password, emailOk)|] == ShortConfirmation
  {
    var login := LoginIssues(password, emailOk);
    var r := login
      + (if |confirmation| < MinPasswordLength then [ShortConfirmation] else [])
      + (if password != confirmation then [Mismatch] else []);
    assert r[..|login|] == login;
    r
  }

  /** The message shown under a field: that of the field's first issue, as the
      resolver keeps only one error per field. */
  function FirstMessage(issues: seq<Issue>, field: Field): (m: Option<string>)
    ensures m.None? <==> forall i :: 0 <= i < |issues| ==> issues[i].field != field
    ensures m.Some? ==>
      exists i :: 0 <= i < |issues| && issues[i].field == field && issues[i].message == m.value
                  && forall j :: 0 <= j < i ==> issues[j].field != field
  {
    if |issues| == 0 then None
    else if issues[0].field == field then Some(issues[0].message)
    else
      var m := FirstMessage(issues[1..], field);
      assert forall i :: 0 < i < |issues| ==> issues[i] == issues[1..][i - 1];
      m
  }

  /** Under the confirmation field the length message wins over the mismatch:
      a six-letter password confirmed by "abc" reads "Confirm password is required". */
  lemma ConfirmationMessage(password: string, confirmation: string, emailOk: bool)
    ensures FirstMessage(RegisterIssues(password, confirmation, emailOk), ConfirmPassword)
      == if |confirmation| < MinPasswordLength then Some(ShortConfirmation.message)
         else if password != confirmation then Some(Mismatch.message)
         else None
  {
  }

  /** A registration passes exactly when the address is valid, the password is long
      enough and typed twice identically; such values also pass the login schema. */
  lemma RegisterAccepts(password: string, confirmation: string, emailOk: bool)
    ensures RegisterIssues(password, confirmation, emailOk) == []
            <==> emailOk && |password| >= MinPasswordLength && password == confirmation
    ensures RegisterIssues(password, confirmation, emailOk) == [] ==> LoginIssues(password, emailOk) == []
  {
    var r := RegisterIssues(password, confirmation, emailOk);
    if r == [] {
      assert BadEmail !in r && ShortPassword !in r && Mismatch !in r;
    }
  }

  /** Where a signed-in visitor is sent: the page they came from, or home. */
  function RedirectTarget(from: Option<string>): (r: string)
    ensures r != ""
    ensures from.Some? && from.value != "" ==> r == from.value
    ensures r != "/" ==> from == Some(r)
  {
    if from.Some? && from.value != "" then from.value else "/"
  }

  datatype View = Redirect(to: string) | Tabs

  function Render(signedIn: bool, from: Option<string>): (v: View)
    ensures v.Redirect? <==> signedIn
    ensures v.Redirect? ==> v.to == RedirectTarget(from)
  {
    if signedIn then Redirect(RedirectTarget(from)) else Tabs
  }

  /** The page's own state; an error is the message text, None when cleared. */
  datatype State = State(loading: bool, loginError: Option<string>, registerError: Option<string>)

  const Initial: State := State(false, None, None)

  /** The authentication service's answer: success, an error object, or a rejection. */
  datatype Attempt = Succeeded | Failed(message: string) | Threw

  /** The alert is rendered only for a non-empty message. */
  predicate AlertShown(error: Option<string>) {
    error.Some? && error.value != ""
  }

  /** `handleLogin`, run only when the login schema reports nothing. */
  function Login(st: State, password: string, emailOk: bool, attempt: Attempt): (r: State)
    ensures LoginIssues(password, emailOk) != [] ==> r == st
    ensures LoginIssues(password, emailOk) == [] ==>
      && !r.loading
      && r.registerError == st.registerError
      && (r.loginError.Some? <==> attempt.Failed?)
      && (attempt.Failed? ==> r.loginError == Some(attempt.message))
  {
    if LoginIssues(password, emailOk) != [] then st
    else
      var busy := st.(loading := true, loginError := None);
      var error := if attempt.Failed? then Some(attempt.message) else busy.loginError;
      busy.(loginError := error, loading := false)
  }

  /** `handleRegister`, the same shape on the other tab's error. */
  function Register(st: State, password: string, confirmation: string, emailOk: bool, attempt: Attempt): (r: State)
    ensures RegisterIssues(password, confirmation, emailOk) != [] ==> r == st
    ensures RegisterIssues(password, confirmation, emailOk) == [] ==>
      && !r.loading
      && r.loginError == st.loginError
      && (r.registerError.Some? <==> attempt.Failed?)
      && (attempt.Failed? ==> r.registerError == Some(attempt.message))
  {
    if RegisterIssues(password, confirmation, emailOk) != [] then st
    else
      var busy := st.(loading := true, registerError := None);
      var error := if attempt.Failed? then Some(attempt.message) else busy.registerError;
      busy.(registerError := error, loading := false)
  }

  /** Changing the query string clears both errors. */
  function OnSearchChange(st: State): (r: State)
    ensures r.loginError.None? && r.registerError.None? && r.loading == st.loading
  {
    st.(loginError := None, registerError := None)
  }

  /** The clearing effect fires only when `location.search` differs from the last render. */
  function AfterNavigation(st: State, before: string, after: string): (r: State)
    ensures before != after ==> r.loginError.None? && r.registerError.None?
    ensures before == after ==> r == st
    ensures r.loading == st.loading
  {
    if before != after then OnSearchChange(st) else st
  }

  /** A tab switch as the page is written: the tabs keep their own selection and
      never touch the URL, so the query string stays `search` and no error is cleared. */
  function SwitchTabAsWritten(st: State, search: string): (r: State)
    ensures r.loginError == st.loginError && r.registerError == st.registerError
  {
    AfterNavigation(st, search, search)
  }

  /** A rejected sign-in, then a switch to the other tab and back: the stale
      message is still on the login tab. */
  lemma StaleErrorAfterTabSwitch()
    ensures var failed := Login(Initial, "secret1", true, Failed("Invalid login credentials"));
      AlertShown(SwitchTabAsWritten(SwitchTabAsWritten(failed, ""), "").loginError)
  {
    assert LoginIssues("secret1", true) == [];
  }

  /** A tab switch that clears both alerts, whatever the URL does. */
  function SwitchTab(st: State): (r: State)
    ensures !AlertShown(r.loginError) && !AlertShown(r.registerError)
    ensures r.loading == st.loading
  {
    OnSearchChange(st)
  }

  /** With the clearing switch, no error survives a switch away and back. */
  lemma SwitchTabClearsStaleError(st: State, password: string, emailOk: bool, message: string)
    ensures !AlertShown(SwitchTab(SwitchTab(Login(st, password, emailOk, Failed(message)))).loginError)
    ensures !AlertShown(SwitchTab(Login(st, password, emailOk, Failed(message))).registerError)
  {
  }

  /** A failed sign-in followed by a successful one leaves no alert, and the
      register tab's alert is never touched by sign-in attempts. */
  lemma RetryClearsLoginError(st: State, password: string, emailOk: bool, message: string)
    requires LoginIssues(password, emailOk) == []
    ensures Login(Login(st, password, emailOk, Failed(message)), password, emailOk, Succeeded).loginError.None?
    ensures Login(Login(st, password, emailOk, Failed(message)), password, emailOk, Succeeded).registerError == st.registerError
  {
  }
}

=== FILE: browse.dfy ===
/** The product listing page (src/pages/Products.tsx): the category list,
    the initial category, and the filter / search / sort pipeline its effect
    runs whenever the selection, the search term or the sort key changes. */
module Browse {
  import opened Wrappers
  import opened Seqs
  import opened Text
  import opened Catalogue

  const All: string := "All"

  /** `['All', ...new Set(products.map(p => p.category))]`. */
  function Categories(products: seq<Product>): (r: seq<string>)
    ensures |r| >= 1 && r[0] == All
    ensures forall i :: 0 <= i < |products| ==> products[i].category in r
    ensures forall i :: 1 <= i < |r| ==> exists j :: 0 <= j < |products| && products[j].category == r[i]
    ensures NoDuplicates(r[1..])
  {
    var cats := CategoryColumn(products);
    var d := Distinct(cats);
    assert ([All] + d)[1..] == d;
    assert forall i :: 0 <= i < |products| ==> products[i].category == cats[i];
    [All] + d
  }

  /** The category column of a catalogue, `products.map(p => p.category)`. */
  function CategoryColumn(products: seq<Product>): seq<string> {
    seq(|products|, i requires 0 <= i < |products| => products[i].category)
  }

  /** After 'All' each category appears once, in the order of its first product. */
  lemma CategoriesInFirstOccurrenceOrder(products: seq<Product>)
    ensures var r := Categories(products)[1..];
      && (forall i :: 0 <= i < |r| ==> r[i] in CategoryColumn(products))
      && InFirstOccurrenceOrder(CategoryColumn(products), r)
  {
    var cats := CategoryColumn(products);
    assert Categories(products)[1..] == Distinct(cats);
    DistinctFirstOccurrenceOrder(cats);
  }

  /** `useState(categoryFilter || 'All')`: the URL parameter unless it is absent or empty. */
  function InitialCategory(param: Option<string>): (r: string)
    ensures r != ""
    ensures param.Some? && param.value != "" ==> r == param.value
    ensures r != All ==> param == Some(r)
  {
    if param.Some? && param.value != "" then param.value else All
  }

  // ---------------------------------------------------------------- filtering

  /** The category step runs only for a selection other than '' and 'All'. */
  predicate CategoryApplies(selected: string) {
    selected != "" && selected != All
  }

  function ByCategory(products: seq<Product>, selected: string): (r: seq<Product>)
    ensures CategoryApplies(selected) ==> forall i :: 0 <= i < |r| ==> r[i].category == selected
    ensures CategoryApplies(selected) ==>
      forall i :: 0 <= i < |products| && products[i].category == selected ==> products[i] in r
    ensures !CategoryApplies(selected) ==> r == products
    ensures forall p :: multiset(r)[p] == if !CategoryApplies(selected) || p.category == selected then multiset(products)[p] else 0
    ensures multiset(r) <= multiset(products) && IsSubseq(r, products)
  {
    if CategoryApplies(selected) then GetProductsByCategory(products, selected)
    else
      SubseqReflexive(products);
      products
  }

  /** Case-insensitive `includes` of the term in the name or the description. */
  predicate MatchesTerm(p: Product, term: string) {
    Contains(Lower(p.name), Lower(term)) || Contains(Lower(p.description), Lower(term))
  }

  function BySearch(products: seq<Product>, term: string): (r: seq<Product>)
    ensures forall i :: 0 <= i < |r| ==> MatchesTerm(r[i], term)
    ensures forall i :: 0 <= i < |products| && MatchesTerm(products[i], term) ==> products[i] in r
    ensures term == "" ==> r == products
    ensures forall p :: multiset(r)[p] == if term == "" || MatchesTerm(p, term) then multiset(products)[p] else 0
    ensures multiset(r) <= multiset(products) && IsSubseq(r, products)
  {
    if term != "" then Filter(products, (p: Product) => MatchesTerm(p, term))
    else
      forall i | 0 <= i < |products|
        ensures MatchesTerm(products[i], term)
      {
        ContainsEmpty(Lower(products[i].name));
      }
      SubseqReflexive(products);
      products
  }

  // ---------------------------------------------------------------- sorting

  datatype SortKey = PriceLow | PriceHigh | NameAZ | NameZA

  /** The select's values; '' ("Recommended") and anything else leave the order alone. */
  function ParseSortKey(s: string): (r: Option<SortKey>)
    ensures r.None? <==> s !in ["priceLow", "priceHigh", "nameAZ", "nameZA"]
  {
    if s == "priceLow" then Some(PriceLow)
    else if s == "priceHigh" then Some(PriceHigh)
    else if s == "nameAZ" then Some(NameAZ)
    else if s == "nameZA" then Some(NameZA)
    else None
  }

  /** `a` may precede `b`: the comparator of key `k` returns a value <= 0. */
  predicate Before(k: SortKey, a: Product, b: Product) {
    match k
    case PriceLow => a.price <= b.price
    case PriceHigh => b.price <= a.price
    case NameAZ => StrLe(a.name, b.name)
    case NameZA => StrLe(b.name, a.name)
  }

  lemma BeforeTotal(k: SortKey, a: Product, b: Product)
    ensures Before(k, a, b) || Before(k, b, a)
  {
    StrLeTotal(a.name, b.name);
  }

  lemma BeforeTransitive(k: SortKey, a: Product, b: Product, c: Product)
    requires Before(k, a, b) && Before(k, b, c)
    ensures Before(k, a, c)
  {
    match k
    case NameAZ => StrLeTransitive(a.name, b.name, c.name);
    case NameZA => StrLeTransitive(c.name, b.name, a.name);
    case _ =>
  }

  predicate Sorted(k: SortKey, s: seq<Product>) {
    forall i, j :: 0 <= i < j < |s| ==> Before(k, s[i], s[j])
  }

  /** Places `x` into a sorted sequence. */
  function Insert(k: SortKey, x: Product, s: seq<Product>): (r: seq<Product>)
    requires Sorted(k, s)
    ensures Sorted(k, r)
    ensures multiset(r) == multiset(s) + multiset{x}
    decreases |s|
  {
    if |s| == 0 then [x]
    else if Before(k, x, s[0]) then
      forall j | 0 < j < |s|
        ensures Before(k, x, s[j])
      {
        BeforeTransitive(k, x, s[0], s[j]);
      }
      assert s == [s[0]] + s[1..];
      [x] + s
    else
      var t := Insert(k, x, s[1..]);
      BeforeTotal(k, x, s[0]);
      InsertHead(k, s[0], x, s[1..], t);
      assert s == [s[0]] + s[1..];
      [s[0]] + t
  }

  /** The head that `x` did not displace may still precede everything after it. */
  lemma InsertHead(k: SortKey, h: Product, x: Product, rest: seq<Product>, t: seq<Product>)
    requires Before(k, h, x)
    requires forall j :: 0 <= j < |rest| ==> Before(k, h, rest[j])
    requires Sorted(k, t) && multiset(t) == multiset(rest) + multiset{x}
    ensures Sorted(k, [h] + t)
  {
    forall j | 0 <= j < |t|
      ensures Before(k, h, t[j])
    {
      assert t[j] in multiset(t);
      if t[j] != x {
        assert t[j] in multiset(rest);
        var m :| 0 <= m < |rest| && rest[m] == t[j];
      }
    }
  }

  /** The comparator sort: a sorted permutation of its input. */
  function SortBy(k: SortKey, s: seq<Product>): (r: seq<Product>)
    ensures Sorted(k, r)
    ensures multiset(r) == multiset(s)
    decreases |s|
  {
    if |s| == 0 then []
    else
      assert s == [s[0]] + s[1..];
      Insert(k, s[0], SortBy(k, s[1..]))
  }

  // ---------------------------------------------------------------- the pipeline

  /** The products a query keeps before sorting. */
  predicate Selected(p: Product, category: string, term: string) {
    (CategoryApplies(category) ==> p.category == category) && (term != "" ==> MatchesTerm(p, term))
  }

  /** `r` holds every selected product as often as `products` does, and nothing else. */
  ghost predicate SelectionOf(r: seq<Product>, products: seq<Product>, category: string, term: string) {
    forall p :: multiset(r)[p] == if Selected(p, category, term) then multiset(products)[p] else 0
  }

  /** A selection contains only selected products and every selected product. */
  lemma SelectionMembers(r: seq<Product>, products: seq<Product>, category: string, term: string)
    requires SelectionOf(r, products, category, term)
    ensures multiset(r) <= multiset(products)
    ensures forall i :: 0 <= i < |r| ==> Selected(r[i], category, term)
    ensures forall i :: 0 <= i < |products| && Selected(products[i], category, term) ==> products[i] in r
  {
    forall i | 0 <= i < |r|
      ensures Selected(r[i], category, term)
    {
      assert multiset(r)[r[i]] > 0;
    }
    forall i | 0 <= i < |products| && Selected(products[i], category, term)
      ensures products[i] in r
    {
      assert multiset(products)[products[i]] > 0;
      assert multiset(r)[products[i]] > 0;
    }
  }

  /** Reordering a selection leaves it a selection. */
  lemma SelectionPermutation(r: seq<Product>, r': seq<Product>, products: seq<Product>, category: string, term: string)
    requires SelectionOf(r, products, category, term) && multiset(r') == multiset(r)
    ensures SelectionOf(r', products, category, term)
  {
  }

  /** The two filter steps keep exactly the selected products, each as often as the
      catalogue lists it, in catalogue order. */
  lemma FilteredIsSelection(products: seq<Product>, category: string, term: string)
    ensures var filtered := BySearch(ByCategory(products, category), term);
      SelectionOf(filtered, products, category, term) && IsSubseq(filtered, products)
  {
    var byCategory := ByCategory(products, category);
    SubseqTransitive(BySearch(byCategory, term), byCategory, products);
  }

  /** The listing effect: category filter, then search, then the optional sort. */
  function Query(products: seq<Product>, category: string, term: string, sortBy: string): (r: seq<Product>)
    ensures SelectionOf(r, products, category, term)
    ensures multiset(r) <= multiset(products)
    ensures forall i :: 0 <= i < |r| ==> Selected(r[i], category, term)
    ensures forall i :: 0 <= i < |products| && Selected(products[i], category, term) ==> products[i] in r
    ensures ParseSortKey(sortBy).None? ==> IsSubseq(r, products)
    ensures ParseSortKey(sortBy).Some? ==> Sorted(ParseSortKey(sortBy).value, r)
  {
    var filtered := BySearch(ByCategory(products, category), term);
    FilteredIsSelection(products, category, term);
    var r := if ParseSortKey(sortBy).None? then filtered else SortBy(ParseSortKey(sortBy).value, filtered);
    SelectionPermutation(filtered, r, products, category, term);
    SelectionMembers(r, products, category, term);
    r
  }
}

=== FILE: cart_controls.dfy ===
/** The quantity buttons of a cart line (src/components/CartItem.tsx). They do not
    change the cart themselves; they issue requests to the cart context. */
module CartControls {

  datatype CartRequest = UpdateQuantity(id: string, quantity: int) | RemoveItem(id: string)

  /** `handleIncrement`. */
  function Increment(id: string, quantity: int): (r: CartRequest)
    ensures r.id == id
    ensures r.UpdateQuantity? && r.quantity == quantity + 1
  {
    UpdateQuantity(id, quantity + 1)
  }

  /** `handleDecrement`: a line at quantity 1 (or less) is removed rather than set to 0. */
  function Decrement(id: string, quantity: int): (r: CartRequest)
    ensures r.id == id
    ensures r.RemoveItem? <==> quantity <= 1
    ensures r.UpdateQuantity? ==> r.quantity == quantity - 1 && r.quantity >= 1
  {
    if quantity > 1 then UpdateQuantity(id, quantity - 1) else RemoveItem(id)
  }

  /** `handleRemove`: removes the line whatever its quantity. */
  function Remove(id: string): (r: CartRequest)
    ensures r.RemoveItem? && r.id == id
  {
    RemoveItem(id)
  }

  /** Minus undoes plus. */
  lemma DecrementUndoesIncrement(id: string, quantity: int)
    requires quantity >= 1
    ensures Decrement(id, Increment(id, quantity).quantity) == UpdateQuantity(id, quantity)
  {
  }

  /** The displayed line amount, `price * quantity`. */
  function LineTotal(price: real, quantity: int): (t: real)
    ensures price >= 0.0 && quantity >= 0 ==> t >= 0.0
    ensures quantity == 1 ==> t == price
  {
    price * quantity as real
  }

  /** Each press of plus adds one unit price to the line amount. */
  lemma LineTotalStep(price: real, quantity: int)
    ensures LineTotal(price, quantity + 1) == LineTotal(price, quantity) + price
  {
  }
}

=== FILE: catalogue.dfy ===
/** The static product catalogue and its three lookups (src/data/products.ts). */
module Catalogue {
  import opened Wrappers
  import opened Seqs

  /** `featured?: boolean`: `None` is a product written without the flag. */
  datatype Product = Product(
    id: int,
    name: string,
    price: real,
    image: string,
    description: string,
    category: string,
    featured: Option<bool>)

  const Placeholder: string := "/placeholder.svg"

  /** The eight products shipped with the storefront, in source order. */
  const Products: seq<Product> := [
    Product(1, "Premium Headphones", 249.99, Placeholder,
      "High-quality wireless headphones with noise cancellation and premium sound quality. Perfect for music lovers and professionals.",
      "Electronics", Some(true)),
    Product(2, "Smartwatch Pro", 199.99, Placeholder,
      "Advanced smartwatch with health tracking, notifications, and apps. Water resistant and long battery life.",
      "Electronics", Some(true)),
    Product(3, "Laptop Backpack", 79.99, Placeholder,
      "Durable and stylish backpack with padded compartments for laptops up to 15 inches. Multiple pockets and water-resistant material.",
      "Accessories", Some(true)),
    Product(4, "Wireless Mouse", 39.99, Placeholder,
      "Ergonomic wireless mouse with precise tracking and long battery life. Compatible with all major operating systems.",
      "Electronics", None),
    Product(5, "Bluetooth Speaker", 89.99, Placeholder,
      "Portable bluetooth speaker with crystal clear sound and 12 hours of battery life. Water-resistant and durable design.",
      "Electronics", None),
    Product(6, "Classic T-Shirt", 24.99, Placeholder,
      "Premium cotton t-shirt with a comfortable fit. Available in multiple colors and sizes.",
      "Clothing", None),
    Product(7, "Coffee Mug", 14.99, Placeholder,
      "Ceramic coffee mug with a sleek design. Dishwasher and microwave safe.",
      "Home", None),
    Product(8, "Desk Lamp", 49.99, Placeholder,
      "LED desk lamp with adjustable brightness and color temperature. Energy-efficient and modern design.",
      "Home", Some(true))
  ]

  predicate IdsDistinct(products: seq<Product>) {
    forall i, j :: 0 <= i < j < |products| ==> products[i].id != products[j].id
  }

  /** A missing flag is falsy, so only an explicit `true` counts. */
  predicate IsFeatured(p: Product) {
    p.featured == Some(true)
  }

  /** Position `i` holds the first product whose id is `id`. */
  predicate FirstWithId(products: seq<Product>, id: int, i: int) {
    0 <= i < |products| && products[i].id == id && forall j :: 0 <= j < i ==> products[j].id != id
  }

  /** `products.find(p => p.id === id)`: the first product carrying `id`. */
  function GetProductById(products: seq<Product>, id: int): (r: Option<Product>)
    ensures r.Some? <==> exists i :: 0 <= i < |products| && products[i].id == id
    ensures r.Some? ==> exists i :: FirstWithId(products, id, i) && products[i] == r.value
    decreases |products|
  {
    if |products| == 0 then None
    else if products[0].id == id then Some(products[0])
    else
      var r := GetProductById(products[1..], id);
      assert forall i :: 0 < i < |products| ==> products[i] == products[1..][i - 1];
      r
  }

  /** With distinct ids the lookup is a partial inverse of `id`: every product is found by its own id. */
  lemma {:induction false} GetProductByOwnId(products: seq<Product>, k: nat)
    requires IdsDistinct(products) && k < |products|
    ensures GetProductById(products, products[k].id) == Some(products[k])
  {
    var r := GetProductById(products, products[k].id);
    var i :| FirstWithId(products, products[k].id, i) && products[i] == r.value;
    assert i == k;
  }

  /** `products.filter(p => p.featured)`. */
  function GetFeaturedProducts(products: seq<Product>): (r: seq<Product>)
    ensures forall i :: 0 <= i < |r| ==> IsFeatured(r[i])
    ensures forall i :: 0 <= i < |products| && IsFeatured(products[i]) ==> products[i] in r
    ensures forall p :: multiset(r)[p] == if IsFeatured(p) then multiset(products)[p] else 0
    ensures IsSubseq(r, products)
  {
    Filter(products, IsFeatured)
  }

  /** `products.filter(p => p.category === category)`. */
  function GetProductsByCategory(products: seq<Product>, category: string): (r: seq<Product>)
    ensures forall i :: 0 <= i < |r| ==> r[i].category == category
    ensures forall i :: 0 <= i < |products| && products[i].category == category ==> products[i] in r
    ensures forall p :: multiset(r)[p] == if p.category == category then multiset(products)[p] else 0
    ensures IsSubseq(r, products)
  {
    Filter(products, (p: Product) => p.category == category)
  }

  /** None of the three queries invents a product. */
  lemma QueriesNeverInvent(products: seq<Product>, id: int, category: string)
    ensures GetProductById(products, id).Some? ==> GetProductById(products, id).value in products
    ensures forall p :: p in GetFeaturedProducts(products) ==> p in products
    ensures forall p :: p in GetProductsByCategory(products, category) ==> p in products
  {
    SubseqMembers(GetFeaturedProducts(products), products);
    SubseqMembers(GetProductsByCategory(products, category), products);
  }

  /** Facts about the shipped data: ids are 1..8 and distinct; no product has id 0. */
  lemma StaticCatalogue()
    ensures |Products| == 8
    ensures IdsDistinct(Products)
    ensures forall i :: 0 <= i < |Products| ==> Products[i].id == i + 1
    ensures GetProductById(Products, 0) == None
  {
  }
}

=== FILE: checkout.dfy ===
/** The checkout page (src/pages/Checkout.tsx): composing the `createOrder`
    argument from the form and the cart, the double-submit guard, clearing the
    cart after `createOrder` returns, and the empty-cart redirect. */
module Checkout {
  import opened Wrappers
  import opened Text
  import opened Orders

  const TaxRate: real := 0.08
  const DefaultCity: string := "Default City"
  const DefaultZip: string := "00000"
  const DefaultCountry: string := "Indonesia"
  const NoLastName: string := "-"

  datatype Form = Form(name: string, email: string, address: string, cardNumber: string)

  /** `split(' ')`, first piece, rest rejoined with `' '` or `'-'` when that is empty. */
  function SplitName(name: string): (r: (string, string))
    ensures Space !in r.0
    ensures r.1 != ""
    ensures Space !in name ==> r == (name, NoLastName)
    ensures Space in name && AfterFirst(name, Space) != "" ==> r.0 + [Space] + r.1 == name
    ensures Space in name && AfterFirst(name, Space) == "" ==> r.0 + [Space] == name && r.1 == NoLastName
  {
    var parts := Split(name, Space);
    var rest := Join(parts[1..], Space);
    RestOfSplit(name, Space);
    (parts[0], if rest == "" then NoLastName else rest)
  }

  /** `totalPrice + totalPrice * 0.08`, exact: no rounding is applied. */
  function Total(subtotal: real): (t: real)
    ensures t == subtotal * (1.0 + TaxRate)
    ensures subtotal >= 0.0 ==> t >= subtotal
  {
    subtotal + subtotal * TaxRate
  }

  /** The `orderData` literal of `handleSubmit`. */
  function ComposeOrder(form: Form, items: seq<CartLine>, totalPrice: real): (d: OrderData)
    ensures (d.firstName, d.lastName) == SplitName(form.name)
    ensures d.email == form.email && d.address == form.address
    ensures d.city == DefaultCity && d.zipCode == DefaultZip && d.country == DefaultCountry
    ensures d.items == items
    ensures d.totalAmount == totalPrice * 1.08
  {
    var (first, last) := SplitName(form.name);
    OrderData(first, last, form.email, form.address, DefaultCity, DefaultZip, DefaultCountry, items, Total(totalPrice))
  }

  /** When the cart's `totalPrice` is the sum of its lines, the stored total is the
      sum of the stored item amounts plus 8%. */
  lemma OrderTotalMatchesItems(form: Form, items: seq<CartLine>, orderId: string)
    ensures ComposeOrder(form, items, CartSubtotal(items)).totalAmount
      == ItemsSubtotal(ItemRows(orderId, items)) * 1.08
  {
    ItemsSubtotalMatchesCart(orderId, items);
  }

  /** Page state: the cart as the cart context exposes it, the form, the in-flight flag. */
  datatype Page = Page(items: seq<CartLine>, totalPrice: real, form: Form, submitting: bool)

  datatype View = RedirectHome | ShowForm

  /** An empty cart renders nothing and navigates home. */
  function Render(page: Page): (v: View)
    ensures v == RedirectHome <==> |page.items| == 0
  {
    if |page.items| == 0 then RedirectHome else ShowForm
  }

  /** The synchronous part of `handleSubmit`: ignored while a submission is in flight,
      otherwise marks one in flight and yields the argument for `createOrder`. */
  function BeginSubmit(page: Page): (r: (Page, Option<OrderData>))
    ensures page.submitting ==> r == (page, None)
    ensures !page.submitting ==> r.0 == page.(submitting := true)
    ensures !page.submitting ==> r.1 == Some(ComposeOrder(page.form, page.items, page.totalPrice))
    ensures r.0.items == page.items
  {
    if page.submitting then (page, None)
    else (page.(submitting := true), Some(ComposeOrder(page.form, page.items, page.totalPrice)))
  }

  /** After `createOrder` returns: clear the cart, navigate to tracking with the
      returned id, and (in `finally`) drop the in-flight flag. */
  function FinishSubmit(page: Page, created: Created): (r: (Page, string))
    ensures |r.0.items| == 0 && !r.0.submitting
    ensures r.0.form == page.form
    ensures r.1 == created.orderId
  {
    (page.(items := [], submitting := false), created.orderId)
  }

  /** The browser's own form validation: every field is `required`, and the e-mail
      field has `type="email"`, whose syntax check enters as `emailOk`. */
  predicate BrowserAccepts(form: Form, emailOk: bool) {
    form.name != "" && form.email != "" && form.address != "" && form.cardNumber != "" && emailOk
  }

  datatype SubmitResult = Blocked | Ignored | Submitted(store: Store, navigateTo: string)

  /** One press of "Place order" over the store. The browser refuses an incomplete
      form before `handleSubmit` runs. `createOrder` never throws, so a submitted
      order always clears the cart, whether or not the rows were written. */
  method HandleSubmit(page: Page, store: Store, env: Env, emailOk: bool) returns (page': Page, result: SubmitResult)
    requires ValidEnv(env)
    ensures !BrowserAccepts(page.form, emailOk) ==> page' == page && result == Blocked
    ensures BrowserAccepts(page.form, emailOk) && page.submitting ==> page' == page && result == Ignored
    ensures result.Submitted? <==> BrowserAccepts(page.form, emailOk) && !page.submitting
    ensures result.Submitted? ==> |page'.items| == 0 && !page'.submitting && page'.form == page.form
    ensures result.Submitted? && Placed(env) ==> result.navigateTo == env.orderUuid
    ensures result.Submitted? ==>
      result.store.orders == store.orders +
        (if env.orderInsertOk then [OrderRowOf(env.orderUuid, ComposeOrder(page.form, page.items, page.totalPrice))] else [])
    ensures !result.Submitted? ==> page'.items == page.items
    ensures result.Submitted? ==>
      var o := CreateOrder(store, ComposeOrder(page.form, page.items, page.totalPrice), env);
      result.store == o.store && result.navigateTo == o.created.orderId
  {
    if !BrowserAccepts(page.form, emailOk) {
      return page, Blocked;
    }
    var (begun, data) := BeginSubmit(page);
    if data.None? {
      return page, Ignored;
    }
    var outcome := CreateOrder(store, data.value, env);
    var (finished, target) := FinishSubmit(begun, outcome.created);
    page' := finished;
    result := Submitted(outcome.store, target);
  }

  /** A second press while the first is in flight never reaches `createOrder`. */
  lemma DoubleSubmitIgnored(page: Page)
    requires !page.submitting
    ensures BeginSubmit(BeginSubmit(page).0).1 == None
  {
  }
}

=== FILE: orders.dfy ===
/** Order placement and lookup against the hosted store (src/services/orderService.ts).
    The store is three append-only row sets; whether each insert succeeds, the
    generated uuid, `Math.random()` draws and `Date.now()` are inputs. */
module Orders {
  import opened Wrappers
  import opened Seqs
  import opened Text

  // ---------------------------------------------------------------- rows

  /** A cart product id is `string | number`. */
  datatype ProductRef = NumericId(n: int) | TextId(text: string)

  /** `item.product.id.toString()`. */
  function IdText(r: ProductRef): string {
    match r
    case NumericId(n) => IntToDecimal(n)
    case TextId(t) => t
  }

  datatype CartProduct = CartProduct(id: ProductRef, name: string, price: real, image: string)

  datatype CartLine = CartLine(product: CartProduct, quantity: int)

  /** The argument of `createOrder`. */
  datatype OrderData = OrderData(
    firstName: string,
    lastName: string,
    email: string,
    address: string,
    city: string,
    zipCode: string,
    country: string,
    items: seq<CartLine>,
    totalAmount: real)

  /** A row of `orders` as inserted (no status, no user: the insert sets neither). */
  datatype OrderRow = OrderRow(
    id: string,
    firstName: string,
    lastName: string,
    email: string,
    address: string,
    city: string,
    zipCode: string,
    country: string,
    totalAmount: real)

  datatype ItemRow = ItemRow(orderId: string, productId: string, quantity: int, unitPrice: real)

  /** A row of `shipping` as inserted; `estimatedDelivery` is in epoch milliseconds. */
  datatype ShippingRow = ShippingRow(orderId: string, trackingNumber: string, estimatedDelivery: int)

  datatype Store = Store(orders: seq<OrderRow>, items: seq<ItemRow>, shipping: seq<ShippingRow>)

  // ---------------------------------------------------------------- environment

  /** Everything `createOrder` receives from outside the model: the `uuidv4()`
      value, the outcome of each of the three inserts, the `Math.random()` draws
      and `Date.now()`. */
  datatype Env = Env(
    orderUuid: string,
    orderInsertOk: bool,
    itemsInsertOk: bool,
    shippingInsertOk: bool,
    trackingDraw: real,
    nowMs: int,
    fallbackOrderDraw: real,
    fallbackTrackingDraw: real)

  /** A value `Math.random()` can return. */
  predicate IsDraw(x: real) {
    0.0 <= x < 1.0
  }

  predicate ValidEnv(env: Env) {
    IsDraw(env.trackingDraw) && IsDraw(env.fallbackOrderDraw) && IsDraw(env.fallbackTrackingDraw)
  }

  /** All three inserts succeed. */
  predicate Placed(env: Env) {
    env.orderInsertOk && env.itemsInsertOk && env.shippingInsertOk
  }

  const DayMs: int := 24 * 60 * 60 * 1000
  const DeliveryDelayMs: int := 5 * DayMs
  const TrackingBound: nat := 100000000
  const FallbackOrderBound: nat := 10000000

  /** `Math.floor(draw * bound)`. */
  function RandomBelow(draw: real, bound: nat): (k: nat)
    requires IsDraw(draw) && bound > 0
    ensures k < bound
  {
    assert draw * bound as real < bound as real by {
      assert (1.0 - draw) * bound as real > 0.0;
    }
    (draw * bound as real).Floor
  }

  /** 'TRK' followed by the decimal form of a number below 10^8, without leading zeros. */
  predicate IsTrackingNumber(t: string) {
    && |t| > 3 && t[..3] == "TRK"
    && AllDigits(t[3..])
    && DecimalValue(t[3..]) < TrackingBound
    && (t[3] == '0' ==> |t| == 4)
  }

  /** `'TRK' + Math.floor(Math.random() * 100000000)`. */
  function TrackingNumber(draw: real): (t: string)
    requires IsDraw(draw)
    ensures IsTrackingNumber(t)
    ensures DecimalValue(t[3..]) == RandomBelow(draw, TrackingBound)
  {
    var k := RandomBelow(draw, TrackingBound);
    DecimalRoundTrip(k);
    var t := "TRK" + NatToDecimal(k);
    assert t[3..] == NatToDecimal(k);
    t
  }

  /** `'ORD' + Math.floor(Math.random() * 10000000)`. */
  function FallbackOrderId(draw: real): (id: string)
    requires IsDraw(draw)
    ensures |id| > 3 && id[..3] == "ORD" && AllDigits(id[3..])
    ensures DecimalValue(id[3..]) < FallbackOrderBound
  {
    var k := RandomBelow(draw, FallbackOrderBound);
    DecimalRoundTrip(k);
    var id := "ORD" + NatToDecimal(k);
    assert id[3..] == NatToDecimal(k);
    id
  }

  // ---------------------------------------------------------------- createOrder

  /** The `orders` row inserted for `data` under the generated id; the items go elsewhere. */
  function OrderRowOf(id: string, data: OrderData): (row: OrderRow)
    ensures row.id == id
    ensures OrderDataOf(row, data.items) == data
  {
    OrderRow(id, data.firstName, data.lastName, data.email, data.address,
      data.city, data.zipCode, data.country, data.totalAmount)
  }

  /** Reassembles the order argument from a stored row and its lines. */
  function OrderDataOf(row: OrderRow, items: seq<CartLine>): OrderData {
    OrderData(row.firstName, row.lastName, row.email, row.address,
      row.city, row.zipCode, row.country, items, row.totalAmount)
  }

  /** The `order_items` payload: one row per cart line, with a price snapshot. */
  function ItemRows(orderId: string, lines: seq<CartLine>): (rows: seq<ItemRow>)
    ensures |rows| == |lines|
    ensures forall i :: 0 <= i < |rows| ==>
      rows[i] == ItemRow(orderId, IdText(lines[i].product.id), lines[i].quantity, lines[i].product.price)
  {
    seq(|lines|, i requires 0 <= i < |lines| =>
      ItemRow(orderId, IdText(lines[i].product.id), lines[i].quantity, lines[i].product.price))
  }

  function CartSubtotal(lines: seq<CartLine>): real
    decreases |lines|
  {
    if |lines| == 0 then 0.0
    else lines[0].product.price * lines[0].quantity as real + CartSubtotal(lines[1..])
  }

  function ItemsSubtotal(rows: seq<ItemRow>): real
    decreases |rows|
  {
    if |rows| == 0 then 0.0
    else rows[0].unitPrice * rows[0].quantity as real + ItemsSubtotal(rows[1..])
  }

  /** The stored price snapshots add up to the cart's subtotal. */
  lemma {:induction false} ItemsSubtotalMatchesCart(orderId: string, lines: seq<CartLine>)
    ensures ItemsSubtotal(ItemRows(orderId, lines)) == CartSubtotal(lines)
    decreases |lines|
  {
    if |lines| > 0 {
      ItemsSubtotalMatchesCart(orderId, lines[1..]);
      assert ItemRows(orderId, lines)[1..] == ItemRows(orderId, lines[1..]);
    }
  }

  datatype Created = Created(orderId: string, trackingNumber: string)

  datatype Outcome = Outcome(store: Store, created: Created)

  /** What the `catch` block returns: fresh draws, never the uuid. */
  function Fallback(env: Env): (c: Created)
    requires ValidEnv(env)
    ensures IsTrackingNumber(c.trackingNumber)
    ensures |c.orderId| > 3 && c.orderId[..3] == "ORD" && AllDigits(c.orderId[3..])
    ensures DecimalValue(c.orderId[3..]) < FallbackOrderBound
  {
    Created(FallbackOrderId(env.fallbackOrderDraw), TrackingNumber(env.fallbackTrackingDraw))
  }

  /** `createOrder`: insert the order, then its items, then its shipping row,
      stopping at the first failed insert; never throws. */
  function CreateOrder(store: Store, data: OrderData, env: Env): (r: Outcome)
    requires ValidEnv(env)
    ensures r.store.orders == store.orders + (if env.orderInsertOk then [OrderRowOf(env.orderUuid, data)] else [])
    ensures r.store.items == store.items +
      (if env.orderInsertOk && env.itemsInsertOk then ItemRows(env.orderUuid, data.items) else [])
    ensures r.store.shipping == store.shipping +
      (if Placed(env) then [ShippingRow(env.orderUuid, r.created.trackingNumber, env.nowMs + DeliveryDelayMs)] else [])
    ensures IsTrackingNumber(r.created.trackingNumber)
    ensures Placed(env) ==> r.created.orderId == env.orderUuid
    ensures !Placed(env) ==> |r.created.orderId| > 3 && r.created.orderId[..3] == "ORD" && AllDigits(r.created.orderId[3..])
  {
    var orderId := env.orderUuid;
    if !env.orderInsertOk then Outcome(store, Fallback(env))
    else
      var s1 := store.(orders := store.orders + [OrderRowOf(orderId, data)]);
      if !env.itemsInsertOk then Outcome(s1, Fallback(env))
      else
        var s2 := s1.(items := s1.items + ItemRows(orderId, data.items));
        var trackingNumber := TrackingNumber(env.trackingDraw);
        if !env.shippingInsertOk then Outcome(s2, Fallback(env))
        else
          var s3 := s2.(shipping := s2.shipping + [ShippingRow(orderId, trackingNumber, env.nowMs + DeliveryDelayMs)]);
          Outcome(s3, Created(orderId, trackingNumber))
  }

  /** The three inserts happen in order: a later table only grows if every earlier one did,
      earlier rows are never undone, and every new row carries the one generated id. */
  lemma CreateOrderSequencing(store: Store, data: OrderData, env: Env)
    requires ValidEnv(env)
    ensures var s := CreateOrder(store, data, env).store;
      && store.orders <= s.orders && store.items <= s.items && store.shipping <= s.shipping
      && (|s.shipping| > |store.shipping| ==> s.items == store.items + ItemRows(env.orderUuid, data.items))
      && (s.items != store.items ==> |s.orders| > |store.orders|)
      && (|s.shipping| > |store.shipping| ==> |s.orders| > |store.orders|)
      && (forall i :: |store.orders| <= i < |s.orders| ==> s.orders[i].id == env.orderUuid)
      && (forall i :: |store.items| <= i < |s.items| ==> s.items[i].orderId == env.orderUuid)
      && (forall i :: |store.shipping| <= i < |s.shipping| ==> s.shipping[i].orderId == env.orderUuid)
  {
  }

  /** The promised delivery is exactly five days after the moment of creation. */
  lemma DeliveryIsFiveDays()
    ensures DeliveryDelayMs == 432000000
  {
  }

  // ---------------------------------------------------------------- lookups

  function OrdersWithId(store: Store, id: string): seq<OrderRow> {
    Filter(store.orders, (o: OrderRow) => o.id == id)
  }

  function ItemsOf(store: Store, id: string): seq<ItemRow> {
    Filter(store.items, (it: ItemRow) => it.orderId == id)
  }

  /** Shipping rows with this tracking number that join an order (`orders!inner`). */
  function ShippingMatches(store: Store, trackingId: string): seq<ShippingRow> {
    Filter(store.shipping, (s: ShippingRow) => s.trackingNumber == trackingId && |OrdersWithId(store, s.orderId)| > 0)
  }

  datatype TrackedOrder = TrackedOrder(shipping: ShippingRow, order: OrderRow)

  datatype OrderDetails = OrderDetails(order: OrderRow, items: seq<ItemRow>)

  /** `getOrderByTrackingId`: `.single()` over the joined rows; any error, or a
      row count other than one, yields `null` rather than an exception. */
  function GetOrderByTrackingId(store: Store, trackingId: string, queryFails: bool): (r: Option<TrackedOrder>)
    ensures r.Some? <==> !queryFails && |ShippingMatches(store, trackingId)| == 1
    ensures r.Some? ==>
      && r.value.shipping in store.shipping && r.value.shipping.trackingNumber == trackingId
      && r.value.order in store.orders && r.value.order.id == r.value.shipping.orderId
  {
    var m := ShippingMatches(store, trackingId);
    if queryFails || |m| != 1 then None
    else
      assert m[0] in multiset(store.shipping);
      var os := OrdersWithId(store, m[0].orderId);
      assert os[0] in multiset(store.orders);
      Some(TrackedOrder(m[0], os[0]))
  }

  /** `getOrderById`: the single order with that id and its item rows, or `null`. */
  function GetOrderById(store: Store, orderId: string, queryFails: bool): (r: Option<OrderDetails>)
    ensures r.Some? <==> !queryFails && |OrdersWithId(store, orderId)| == 1
    ensures r.Some? ==>
      && r.value.order in store.orders && r.value.order.id == orderId
      && (forall i :: 0 <= i < |r.value.items| ==> r.value.items[i].orderId == orderId)
      && (forall i :: 0 <= i < |store.items| && store.items[i].orderId == orderId ==> store.items[i] in r.value.items)
    ensures r.Some? ==> forall it :: multiset(r.value.items)[it] == if it.orderId == orderId then multiset(store.items)[it] else 0
  {
    var m := OrdersWithId(store, orderId);
    if queryFails || |m| != 1 then None
    else
      assert m[0] in multiset(store.orders);
      Some(OrderDetails(m[0], ItemsOf(store, orderId)))
  }

  // ---------------------------------------------------------------- lookups after createOrder

  /** Nothing in the store uses this order id or tracking number yet. */
  predicate Fresh(store: Store, orderId: string, trackingNumber: string) {
    && (forall i :: 0 <= i < |store.orders| ==> store.orders[i].id != orderId)
    && (forall i :: 0 <= i < |store.items| ==> store.items[i].orderId != orderId)
    && (forall i :: 0 <= i < |store.shipping| ==> store.shipping[i].trackingNumber != trackingNumber)
  }

  lemma FilterNone<T(!new)>(s: seq<T>, f: T -> bool)
    requires forall i :: 0 <= i < |s| ==> !f(s[i])
    ensures Filter(s, f) == []
  {
  }

  /** After a fully successful `createOrder` into a store that did not know the new
      id or tracking number, looking up the returned tracking number finds the new
      shipping row joined with the new order. */
  lemma TrackingLookupAfterCreate(store: Store, data: OrderData, env: Env)
    requires ValidEnv(env) && Placed(env)
    requires Fresh(store, env.orderUuid, TrackingNumber(env.trackingDraw))
    ensures var r := CreateOrder(store, data, env);
      var ship := ShippingRow(env.orderUuid, r.created.trackingNumber, env.nowMs + DeliveryDelayMs);
      GetOrderByTrackingId(r.store, r.created.trackingNumber, false) == Some(TrackedOrder(ship, OrderRowOf(env.orderUuid, data)))
  {
    var r := CreateOrder(store, data, env);
    var ship := ShippingRow(env.orderUuid, r.created.trackingNumber, env.nowMs + DeliveryDelayMs);
    NewOrderFound(store, data, env);
    NewShippingFound(store, data, env);
    assert OrdersWithId(r.store, ship.orderId) == [OrderRowOf(env.orderUuid, data)];
  }

  /** After full success the new shipping row is the only one carrying its tracking number. */
  lemma NewShippingFound(store: Store, data: OrderData, env: Env)
    requires ValidEnv(env) && Placed(env)
    requires Fresh(store, env.orderUuid, TrackingNumber(env.trackingDraw))
    ensures var r := CreateOrder(store, data, env);
      ShippingMatches(r.store, r.created.trackingNumber)
        == [ShippingRow(env.orderUuid, r.created.trackingNumber, env.nowMs + DeliveryDelayMs)]
  {
    var r := CreateOrder(store, data, env);
    var s := r.store;
    var tn := r.created.trackingNumber;
    var ship := ShippingRow(env.orderUuid, tn, env.nowMs + DeliveryDelayMs);
    NewOrderFound(store, data, env);
    var hasTn := (x: ShippingRow) => x.trackingNumber == tn && |OrdersWithId(s, x.orderId)| > 0;
    assert s.shipping == store.shipping + [ship];
    FilterAppend(store.shipping, [ship], hasTn);
    FilterNone(store.shipping, hasTn);
  }

  /** Once its insert succeeded, an order with a fresh id is the only order with that id. */
  lemma NewOrderFound(store: Store, data: OrderData, env: Env)
    requires ValidEnv(env) && env.orderInsertOk
    requires forall i :: 0 <= i < |store.orders| ==> store.orders[i].id != env.orderUuid
    ensures OrdersWithId(CreateOrder(store, data, env).store, env.orderUuid) == [OrderRowOf(env.orderUuid, data)]
  {
    var id := env.orderUuid;
    var isId := (o: OrderRow) => o.id == id;
    FilterAppend(store.orders, [OrderRowOf(id, data)], isId);
    FilterNone(store.orders, isId);
  }

  /** After a fully successful `createOrder` with a fresh id, looking up the id finds
      the order with exactly one item row per cart line, in cart order. */
  lemma IdLookupAfterCreate(store: Store, data: OrderData, env: Env)
    requires ValidEnv(env) && Placed(env)
    requires Fresh(store, env.orderUuid, TrackingNumber(env.trackingDraw))
    ensures var r := CreateOrder(store, data, env);
      GetOrderById(r.store, env.orderUuid, false) == Some(OrderDetails(OrderRowOf(env.orderUuid, data), ItemRows(env.orderUuid, data.items)))
  {
    var s := CreateOrder(store, data, env).store;
    var id := env.orderUuid;
    NewOrderFound(store, data, env);
    var ofId := (it: ItemRow) => it.orderId == id;
    FilterAppend(store.items, ItemRows(id, data.items), ofId);
    FilterNone(store.items, ofId);
    FilterAll(ItemRows(id, data.items), ofId);
    assert ItemsOf(s, id) == ItemRows(id, data.items);
  }

  /** Filtering with a predicate every element meets keeps everything. */
  lemma {:induction false} FilterAll<T(!new)>(s: seq<T>, f: T -> bool)
    requires forall i :: 0 <= i < |s| ==> f(s[i])
    ensures Filter(s, f) == s
    decreases |s|
  {
    if |s| > 0 {
      FilterAll(s[1..], f);
    }
  }

  /** The writes are not atomic: when the items insert fails the order row stays,
      and the order is found by id with no items. */
  lemma OrphanedOrder(store: Store, data: OrderData, env: Env)
    requires ValidEnv(env) && env.orderInsertOk && !env.itemsInsertOk
    requires forall i :: 0 <= i < |store.orders| ==> store.orders[i].id != env.orderUuid
    requires forall i :: 0 <= i < |store.items| ==> store.items[i].orderId != env.orderUuid
    ensures var r := CreateOrder(store, data, env);
      GetOrderById(r.store, env.orderUuid, false) == Some(OrderDetails(OrderRowOf(env.orderUuid, data), []))
  {
    NewOrderFound(store, data, env);
    FilterNone(store.items, (it: ItemRow) => it.orderId == env.orderUuid);
  }
}

=== FILE: product_detail.dfy ===
/** The product page (src/pages/ProductDetail.tsx): resolving the route id, the
    selected quantity and its clamps, and adding to the cart. */
module ProductDetail {
  import opened Wrappers
  import opened Text
  import opened Catalogue

  const InitialQuantity: int := 1

  function Max(a: int, b: int): int {
    if a >= b then a else b
  }

  datatype QuantityEvent = Minus | Plus | Typed(text: string)

  /** `Math.max(1, parseInt(text) || 1)`: NaN and 0 fall back to 1, and the result is at least 1. */
  function TypedQuantity(text: string): (q: int)
    ensures q >= 1
    ensures ParseInt(text).Some? && ParseInt(text).value >= 1 ==> q == ParseInt(text).value
    ensures ParseInt(text).None? || ParseInt(text).value < 1 ==> q == 1
  {
    var parsed := ParseInt(text);
    var n := if parsed.None? || parsed.value == 0 then 1 else parsed.value;
    Max(1, n)
  }

  /** Typing the decimal form of a positive quantity selects exactly that quantity. */
  lemma TypedRoundTrip(n: int)
    requires n >= 1
    ensures TypedQuantity(IntToDecimal(n)) == n
  {
    ParseIntRoundTrip(n);
  }

  /** The effect of one control on the selected quantity. */
  function Apply(quantity: int, e: QuantityEvent): (q: int)
    ensures e.Minus? && quantity > 1 ==> q == quantity - 1
    ensures e.Minus? && quantity <= 1 ==> q == 1
    ensures e.Plus? ==> q == quantity + 1
    ensures e.Typed? ==> q == TypedQuantity(e.text) && q >= 1
  {
    match e
    case Minus => Max(1, quantity - 1)
    case Plus => quantity + 1
    case Typed(text) => TypedQuantity(text)
  }

  /** The selected quantity after a sequence of events from the initial 1. */
  function Run(events: seq<QuantityEvent>): (q: int)
    ensures q >= 1
    decreases |events|
  {
    if |events| == 0 then InitialQuantity
    else Apply(Run(events[..|events| - 1]), events[|events| - 1])
  }

  /** Minus after plus returns to the same quantity. */
  lemma MinusUndoesPlus(events: seq<QuantityEvent>)
    ensures Run(events + [Plus, Minus]) == Run(events)
  {
    assert (events + [Plus, Minus])[..|events| + 1] == events + [Plus];
    assert (events + [Plus])[..|events|] == events;
  }

  /** `parseInt(id || '0')`: a missing or empty route id reads as 0. */
  function RouteKey(routeId: Option<string>): (k: Option<int>)
    ensures routeId.None? || routeId == Some("") ==> k == Some(0)
    ensures routeId.Some? && routeId.value != "" ==> k == ParseInt(routeId.value)
  {
    if routeId.None? || routeId.value == "" then
      ParseIntRoundTrip(0);
      assert IntToDecimal(0) == "0";
      ParseInt("0")
    else ParseInt(routeId.value)
  }

  /** The product the page shows, or `None` for the not-found view. A NaN key
      matches no id. */
  function RouteProduct(products: seq<Product>, routeId: Option<string>): (r: Option<Product>)
    ensures r.Some? ==> r.value in products && RouteKey(routeId) == Some(r.value.id)
    ensures r.Some? ==> exists i :: FirstWithId(products, RouteKey(routeId).value, i) && products[i] == r.value
    ensures RouteKey(routeId).None? ==> r.None?
    ensures RouteKey(routeId).Some? && (exists i :: 0 <= i < |products| && products[i].id == RouteKey(routeId).value)
      ==> r.Some?
  {
    match RouteKey(routeId)
    case None => None
    case Some(key) =>
      GetProductById(products, key)
  }

  /** Without an id the shipped catalogue shows the not-found view (no product has id 0). */
  lemma MissingRouteNotFound()
    ensures RouteProduct(Products, None) == None
  {
    ParseIntRoundTrip(0);
    assert RouteKey(None) == ParseInt(IntToDecimal(0));
    StaticCatalogue();
  }

  /** The route `/product/<id>` of a catalogue product shows that product. */
  lemma RouteOfOwnId(products: seq<Product>, k: nat)
    requires IdsDistinct(products) && k < |products|
    ensures RouteProduct(products, Some(IntToDecimal(products[k].id))) == Some(products[k])
  {
    ParseIntRoundTrip(products[k].id);
    GetProductByOwnId(products, k);
  }

  datatype AddItem = AddItem(product: Product, quantity: int)

  /** `handleAddToCart` after `events`: only on a found product, with the selected quantity. */
  function AddToCart(products: seq<Product>, routeId: Option<string>, events: seq<QuantityEvent>): (r: Option<AddItem>)
    ensures r.Some? <==> RouteProduct(products, routeId).Some?
    ensures r.Some? ==> r.value.product == RouteProduct(products, routeId).value
    ensures r.Some? ==> r.value.quantity == Run(events) && r.value.quantity >= 1
  {
    match RouteProduct(products, routeId)
    case None => None
    case Some(p) => Some(AddItem(p, Run(events)))
  }
}

=== FILE: seqs.dfy ===
/** Sequence helpers shared by the catalogue queries and the order store:
    `Array.prototype.filter`, order-preserving membership (subsequence),
    first-occurrence search and `new Set(...)` de-duplication. */
module Seqs {

  /** `a` can be obtained from `b` by deleting elements, keeping order. */
  predicate IsSubseq<T(==)>(a: seq<T>, b: seq<T>)
    decreases |b|
  {
    |a| == 0 || (|b| > 0 && ((a[0] == b[0] && IsSubseq(a[1..], b[1..])) || IsSubseq(a, b[1..])))
  }

  lemma {:induction false} SubseqReflexive<T>(s: seq<T>)
    ensures IsSubseq(s, s)
    decreases |s|
  {
    if |s| > 0 {
      SubseqReflexive(s[1..]);
    }
  }

  lemma {:induction false} SubseqTransitive<T>(a: seq<T>, b: seq<T>, c: seq<T>)
    requires IsSubseq(a, b) && IsSubseq(b, c)
    ensures IsSubseq(a, c)
    decreases |c|
  {
    if |a| > 0 {
      if b[0] == c[0] && IsSubseq(b[1..], c[1..]) {
        if a[0] == b[0] && IsSubseq(a[1..], b[1..]) {
          SubseqTransitive(a[1..], b[1..], c[1..]);
        } else {
          SubseqTransitive(a, b[1..], c[1..]);
        }
      } else {
        SubseqTransitive(a, b, c[1..]);
      }
    }
  }

  /** Every element of a subsequence occurs in the sequence it was taken from. */
  lemma {:induction false} SubseqMembers<T>(a: seq<T>, b: seq<T>)
    requires IsSubseq(a, b)
    ensures forall x :: x in a ==> x in b
    decreases |b|
  {
    if |a| > 0 {
      if a[0] == b[0] && IsSubseq(a[1..], b[1..]) {
        SubseqMembers(a[1..], b[1..]);
        assert forall x :: x in a ==> x == a[0] || x in a[1..];
      } else {
        SubseqMembers(a, b[1..]);
      }
    }
  }

  /** `Array.prototype.filter`: the elements satisfying `f`, in their original order. */
  function Filter<T(!new)>(s: seq<T>, f: T -> bool): (r: seq<T>)
    ensures forall i :: 0 <= i < |r| ==> f(r[i])
    ensures forall i :: 0 <= i < |s| && f(s[i]) ==> s[i] in r
    ensures multiset(r) <= multiset(s)
    ensures forall x :: multiset(r)[x] == if f(x) then multiset(s)[x] else 0
    ensures IsSubseq(r, s)
    decreases |s|
  {
    if |s| == 0 then []
    else
      var rest := Filter(s[1..], f);
      var r := if f(s[0]) then [s[0]] + rest else rest;
      FilterCons(s[0], s[1..], f, rest, r);
      assert s == [s[0]] + s[1..];
      r
  }

  /** One step of `Filter`: what holds of the filtered tail carries over to the
      filtered list with its head. */
  lemma FilterCons<T(!new)>(x: T, t: seq<T>, f: T -> bool, rest: seq<T>, r: seq<T>)
    requires forall i :: 0 <= i < |rest| ==> f(rest[i])
    requires forall i :: 0 <= i < |t| && f(t[i]) ==> t[i] in rest
    requires multiset(rest) <= multiset(t)
    requires forall y :: multiset(rest)[y] == if f(y) then multiset(t)[y] else 0
    requires IsSubseq(rest, t)
    requires r == if f(x) then [x] + rest else rest
    ensures forall i :: 0 <= i < |r| ==> f(r[i])
    ensures forall i :: 0 <= i < |[x] + t| && f(([x] + t)[i]) ==> ([x] + t)[i] in r
    ensures multiset(r) <= multiset([x] + t)
    ensures forall y :: multiset(r)[y] == if f(y) then multiset([x] + t)[y] else 0
    ensures IsSubseq(r, [x] + t)
  {
    var s := [x] + t;
    assert s[1..] == t;
    assert forall i :: 1 <= i < |s| ==> s[i] == t[i - 1];
    if f(x) {
      assert r[1..] == rest;
    }
  }

  /** Filtering distributes over concatenation. */
  lemma {:induction false} FilterAppend<T(!new)>(a: seq<T>, b: seq<T>, f: T -> bool)
    ensures Filter(a + b, f) == Filter(a, f) + Filter(b, f)
    decreases |a|
  {
    if |a| == 0 {
      assert a + b == b;
    } else {
      assert (a + b)[0] == a[0];
      assert (a + b)[1..] == a[1..] + b;
      FilterAppend(a[1..], b, f);
    }
  }

  /** Position of the first occurrence of `x` in `s` (`indexOf`, `find`). */
  function IndexOf<T(==)>(s: seq<T>, x: T): (i: nat)
    requires x in s
    ensures i < |s| && s[i] == x
    ensures x !in s[..i]
    decreases |s|
  {
    if s[0] == x then 0
    else
      var j := IndexOf(s[1..], x);
      assert s[..j + 1] == [s[0]] + s[1..][..j];
      j + 1
  }

  /** The first occurrence of an element of a prefix lies in that prefix. */
  lemma {:induction false} IndexOfPrefix<T>(s: seq<T>, k: nat, x: T)
    requires k <= |s| && x in s[..k]
    ensures IndexOf(s, x) == IndexOf(s[..k], x)
    decreases k
  {
    if s[0] != x {
      assert s[..k][1..] == s[1..][..k - 1];
      IndexOfPrefix(s[1..], k - 1, x);
    }
  }

  predicate NoDuplicates<T(==)>(s: seq<T>) {
    forall i, j :: 0 <= i < j < |s| ==> s[i] != s[j]
  }

  /** The elements of `new Set(s)`, in insertion (first-occurrence) order. */
  function Distinct<T(==)>(s: seq<T>): (r: seq<T>)
    ensures forall i :: 0 <= i < |r| ==> r[i] in s
    ensures forall i :: 0 <= i < |s| ==> s[i] in r
    ensures NoDuplicates(r)
    decreases |s|
  {
    if |s| == 0 then []
    else
      var init := s[..|s| - 1];
      var d := Distinct(init);
      assert s == init + [s[|s| - 1]];
      assert forall i :: 0 <= i < |s| - 1 ==> s[i] == init[i];
      if s[|s| - 1] in init then d else d + [s[|s| - 1]]
  }

  /** `r` lists elements of `s` in the order of their first occurrence there. */
  predicate InFirstOccurrenceOrder<T(==)>(s: seq<T>, r: seq<T>)
    requires forall i :: 0 <= i < |r| ==> r[i] in s
  {
    forall i, j :: 0 <= i < j < |r| ==> IndexOf(s, r[i]) < IndexOf(s, r[j])
  }

  /** `Distinct` lists the elements in the order of their first occurrence. */
  lemma {:induction false} DistinctFirstOccurrenceOrder<T>(s: seq<T>)
    ensures InFirstOccurrenceOrder(s, Distinct(s))
    decreases |s|
  {
    if |s| > 0 {
      var n := |s| - 1;
      var init := s[..n];
      DistinctFirstOccurrenceOrder(init);
      var d := Distinct(init);
      var r := if s[n] in init then d else d + [s[n]];
      FirstOccurrenceStep(s, d, r);
      assert Distinct(s) == r;
    }
  }

  /** The ordering survives appending the last element of `s` to the prefix's list. */
  lemma FirstOccurrenceStep<T>(s: seq<T>, d: seq<T>, r: seq<T>)
    requires |s| > 0
    requires forall i :: 0 <= i < |d| ==> d[i] in s[..|s| - 1]
    requires InFirstOccurrenceOrder(s[..|s| - 1], d)
    requires r == if s[|s| - 1] in s[..|s| - 1] then d else d + [s[|s| - 1]]
    ensures forall i :: 0 <= i < |r| ==> r[i] in s
    ensures InFirstOccurrenceOrder(s, r)
  {
    var n := |s| - 1;
    var init := s[..n];
    assert s == init + [s[n]];
    forall i | 0 <= i < |d|
      ensures IndexOf(s, d[i]) == IndexOf(init, d[i]) < n
    {
      IndexOfPrefix(s, n, d[i]);
    }
    if s[n] !in init {
      assert IndexOf(s, s[n]) == n;
      forall i, j | 0 <= i < j < |r|
        ensures IndexOf(s, r[i]) < IndexOf(s, r[j])
      {
        assert r[i] == d[i];
        if j < |d| {
          assert r[j] == d[j];
        }
      }
    }
  }
}

=== FILE: text.dfy ===
/** String helpers the pages rely on: ASCII case mapping, `includes`,
    `split(' ')`/`join(' ')`, decimal formatting of integers (`toString`,
    string concatenation) and decimal `parseInt`, and the lexicographic order
    that stands in for `localeCompare`. */
module Text {
  import opened Wrappers
  import Seqs

  const Space: char := ' '

  // ---------------------------------------------------------------- case

  function LowerChar(c: char): char {
    if 'A' <= c <= 'Z' then (c as int + 32) as char else c
  }

  function UpperChar(c: char): char {
    if 'a' <= c <= 'z' then (c as int - 32) as char else c
  }

  /** `toLowerCase`, restricted to the ASCII letters. */
  function Lower(s: string): string {
    seq(|s|, i requires 0 <= i < |s| => LowerChar(s[i]))
  }

  /** Lower-casing is idempotent, and leaves no upper-case ASCII letter behind. */
  lemma LowerIdempotent(s: string)
    ensures Lower(Lower(s)) == Lower(s)
    ensures forall i :: 0 <= i < |s| ==> !('A' <= Lower(s)[i] <= 'Z')
  {
  }

  // ---------------------------------------------------------------- substrings

  predicate IsPrefix(p: string, s: string) {
    |p| <= |s| && s[..|p|] == p
  }

  /** `hay.includes(needle)`. */
  predicate Contains(hay: string, needle: string)
    decreases |hay|
  {
    IsPrefix(needle, hay) || (|hay| > 0 && Contains(hay[1..], needle))
  }

  ghost predicate OccursAt(hay: string, needle: string, i: int) {
    0 <= i && i + |needle| <= |hay| && hay[i..i + |needle|] == needle
  }

  /** `Contains` holds exactly when the needle occurs at some position. */
  lemma {:induction false} ContainsIff(hay: string, needle: string)
    ensures Contains(hay, needle) <==> exists i :: OccursAt(hay, needle, i)
    decreases |hay|
  {
    if IsPrefix(needle, hay) {
      assert OccursAt(hay, needle, 0);
    } else if |hay| > 0 {
      ContainsIff(hay[1..], needle);
      forall i | OccursAt(hay[1..], needle, i)
        ensures OccursAt(hay, needle, i + 1)
      {
        assert hay[1..][i..i + |needle|] == hay[i + 1..i + 1 + |needle|];
      }
      forall i | OccursAt(hay, needle, i)
        ensures i > 0 && OccursAt(hay[1..], needle, i - 1)
      {
        assert i != 0 by {
          assert OccursAt(hay, needle, 0) ==> IsPrefix(needle, hay);
        }
        assert hay[1..][i - 1..i - 1 + |needle|] == hay[i..i + |needle|];
      }
    } else {
      assert !OccursAt(hay, needle, 0);
    }
  }

  /** Every string contains the empty string. */
  lemma ContainsEmpty(hay: string)
    ensures Contains(hay, "")
  {
    assert IsPrefix("", hay);
  }

  // ---------------------------------------------------------------- split / join

  /** The text after the first `sep`, or "" when there is none. */
  function AfterFirst(s: string, sep: char): (r: string)
    ensures |r| < |s| || r == ""
  {
    if sep in s then s[Seqs.IndexOf(s, sep) + 1..] else ""
  }

  /** `s.split(sep)`: the pieces between separators, empty pieces included. */
  function Split(s: string, sep: char): (parts: seq<string>)
    ensures |parts| >= 1
    ensures sep !in parts[0]
    ensures sep !in s ==> parts == [s]
    ensures sep in s ==> parts[0] == s[..Seqs.IndexOf(s, sep)] && |parts| >= 2
    decreases |s|
  {
    if sep !in s then [s]
    else [s[..Seqs.IndexOf(s, sep)]] + Split(AfterFirst(s, sep), sep)
  }

  /** `parts.join(sep)`. */
  function Join(parts: seq<string>, sep: char): string
    decreases |parts|
  {
    if |parts| == 0 then ""
    else if |parts| == 1 then parts[0]
    else parts[0] + [sep] + Join(parts[1..], sep)
  }

  /** The pieces after the first are the split of the text after the first separator. */
  lemma SplitTail(s: string, sep: char)
    requires sep in s
    ensures Split(s, sep)[1..] == Split(AfterFirst(s, sep), sep)
  {
    var tail := Split(AfterFirst(s, sep), sep);
    assert ([s[..Seqs.IndexOf(s, sep)]] + tail)[1..] == tail;
  }

  /** No piece of a split contains the separator. */
  lemma {:induction false} SplitPiecesFree(s: string, sep: char)
    ensures forall k :: 0 <= k < |Split(s, sep)| ==> sep !in Split(s, sep)[k]
    decreases |s|
  {
    if sep in s {
      SplitTail(s, sep);
      SplitPiecesFree(AfterFirst(s, sep), sep);
      var parts := Split(s, sep);
      forall k | 1 <= k < |parts|
        ensures sep !in parts[k]
      {
        assert parts[k] == parts[1..][k - 1];
      }
    }
  }

  /** Head, separator and the text after the first separator rebuild the string. */
  lemma CutAtFirst(s: string, sep: char)
    requires sep in s
    ensures s == Split(s, sep)[0] + [sep] + AfterFirst(s, sep)
  {
    var i := Seqs.IndexOf(s, sep);
    assert s == s[..i] + [s[i]] + s[i + 1..];
  }

  /** Joining the pieces of a split with the same separator gives the string back. */
  lemma {:induction false} JoinSplit(s: string, sep: char)
    ensures Join(Split(s, sep), sep) == s
    decreases |s|
  {
    if sep in s {
      var parts := Split(s, sep);
      SplitTail(s, sep);
      JoinSplit(AfterFirst(s, sep), sep);
      CutAtFirst(s, sep);
      assert Join(parts, sep) == parts[0] + [sep] + Join(parts[1..], sep);
    }
  }

  /** `parts.slice(1).join(sep)` after a split is the text after the first separator,
      and head, separator and that text rebuild the string. */
  lemma RestOfSplit(s: string, sep: char)
    ensures Join(Split(s, sep)[1..], sep) == AfterFirst(s, sep)
    ensures sep in s ==> s == Split(s, sep)[0] + [sep] + AfterFirst(s, sep)
  {
    if sep in s {
      SplitTail(s, sep);
      JoinSplit(AfterFirst(s, sep), sep);
      CutAtFirst(s, sep);
    }
  }

  // ---------------------------------------------------------------- decimal numbers

  predicate IsDigit(c: char) {
    '0' <= c <= '9'
  }

  predicate AllDigits(s: string) {
    forall i :: 0 <= i < |s| ==> IsDigit(s[i])
  }

  function DigitChar(d: nat): (c: char)
    requires d < 10
    ensures IsDigit(c)
  {
    ('0' as int + d) as char
  }

  function DigitValue(c: char): (d: nat)
    requires IsDigit(c)
    ensures d < 10 && DigitChar(d) == c
  {
    c as int - '0' as int
  }

  /** Decimal form of a natural number, as `String(n)` writes it. */
  function NatToDecimal(n: nat): (r: string)
    ensures |r| >= 1 && AllDigits(r)
    ensures r[0] == '0' ==> n == 0
    decreases n
  {
    if n < 10 then [DigitChar(n)]
    else NatToDecimal(n / 10) + [DigitChar(n % 10)]
  }

  /** `String(i)` for an integer: a minus sign before the magnitude when negative. */
  function IntToDecimal(i: int): (r: string)
    ensures |r| >= 1
    ensures i >= 0 ==> AllDigits(r)
    ensures i < 0 ==> r[0] == '-' && AllDigits(r[1..])
  {
    if i < 0 then "-" + NatToDecimal(-i) else NatToDecimal(i)
  }

  /** The number a string of digits denotes. */
  function DecimalValue(s: string): nat
    requires AllDigits(s)
    decreases |s|
  {
    if |s| == 0 then 0
    else DecimalValue(s[..|s| - 1]) * 10 + DigitValue(s[|s| - 1])
  }

  lemma {:induction false} DecimalRoundTrip(n: nat)
    ensures DecimalValue(NatToDecimal(n)) == n
    decreases n
  {
    if n >= 10 {
      DecimalRoundTrip(n / 10);
      var r := NatToDecimal(n);
      assert r[..|r| - 1] == NatToDecimal(n / 10);
    }
  }

  /** Length of the longest prefix of `s` made of digits. */
  function DigitPrefixLength(s: string): (k: nat)
    ensures k <= |s| && AllDigits(s[..k])
    ensures k < |s| ==> !IsDigit(s[k])
    decreases |s|
  {
    if |s| == 0 || !IsDigit(s[0]) then 0
    else
      var k := DigitPrefixLength(s[1..]);
      assert s[..k + 1] == [s[0]] + s[1..][..k];
      k + 1
  }

  lemma DigitPrefixOfDigits(s: string)
    requires AllDigits(s)
    ensures DigitPrefixLength(s) == |s|
  {
  }

  predicate IsBlank(c: char) {
    c == ' ' || c == '\t' || c == '\n' || c == '\r'
  }

  function TrimStart(s: string): (r: string)
    ensures |r| <= |s|
    ensures |r| > 0 ==> !IsBlank(r[0])
    decreases |s|
  {
    if |s| > 0 && IsBlank(s[0]) then TrimStart(s[1..]) else s
  }

  /** `parseInt(s)` with no radix, for decimal text: leading blanks, an optional
      sign, then the longest run of digits; `None` (NaN) when there is no digit. */
  function ParseInt(s: string): (r: Option<int>)
  {
    var t := TrimStart(s);
    var negative := |t| > 0 && t[0] == '-';
    var body := if |t| > 0 && (t[0] == '-' || t[0] == '+') then t[1..] else t;
    var k := DigitPrefixLength(body);
    if k == 0 then None
    else
      var magnitude: int := DecimalValue(body[..k]);
      Some(if negative then -magnitude else magnitude)
  }

  /** `parseInt` reads back what `String(i)` writes. */
  lemma ParseIntRoundTrip(i: int)
    ensures ParseInt(IntToDecimal(i)) == Some(i)
  {
    var s := IntToDecimal(i);
    assert TrimStart(s) == s;
    var m := if i < 0 then -i else i;
    var digits := NatToDecimal(m);
    DigitPrefixOfDigits(digits);
    DecimalRoundTrip(m);
    assert digits[..|digits|] == digits;
    if i < 0 {
      assert s[1..] == digits;
    }
  }

  // ---------------------------------------------------------------- ordering

  /** Lexicographic order on code points, standing in for `localeCompare(...) <= 0`. */
  predicate StrLe(a: string, b: string)
    decreases |a|
  {
    |a| == 0 || (|b| > 0 && (a[0] < b[0] || (a[0] == b[0] && StrLe(a[1..], b[1..]))))
  }

  lemma {:induction false} StrLeTotal(a: string, b: string)
    ensures StrLe(a, b) || StrLe(b, a)
    decreases |a|
  {
    if |a| > 0 && |b| > 0 && a[0] == b[0] {
      StrLeTotal(a[1..], b[1..]);
    }
  }

  lemma {:induction false} StrLeTransitive(a: string, b: string, c: string)
    requires StrLe(a, b) && StrLe(b, c)
    ensures StrLe(a, c)
    decreases |a|
  {
    if |a| > 0 && a[0] == b[0] && b[0] == c[0] {
      StrLeTransitive(a[1..], b[1..], c[1..]);
    }
  }

  lemma {:induction false} StrLeAntisymmetric(a: string, b: string)
    requires StrLe(a, b) && StrLe(b, a)
    ensures a == b
    decreases |a|
  {
    if |a| > 0 {
      StrLeAntisymmetric(a[1..], b[1..]);
      assert a == [a[0]] + a[1..] && b == [b[0]] + b[1..];
    }
  }
}

=== FILE: tracking.dfy ===
/** The order tracking page (src/pages/OrderTracking.tsx): the id searched for,
    the form's required flag, and the fixed four-step timeline shown once an
    id has been searched. The clock and the random draw are parameters; dates
    are kept as millisecond instants, the locale formatting is not modelled. */
module Tracking {
  import opened Wrappers
  import Orders

  datatype StepStatus = Completed | Current | Upcoming

  datatype Step = Step(status: StepStatus, title: string, date: Option<int>)

  /** The timeline, the same for every order. */
  function Timeline(nowMs: int): (r: seq<Step>)
    ensures |r| == 4
    ensures r[0].title == "Order Confirmed" && r[1].title == "Order Processed"
    ensures r[2].title == "Shipped" && r[3].title == "Out for Delivery"
  {
    [ Step(Completed, "Order Confirmed", Some(nowMs)),
      Step(Completed, "Order Processed", Some(nowMs + Orders.DayMs)),
      Step(Current, "Shipped", Some(nowMs + 2 * Orders.DayMs)),
      Step(Upcoming, "Out for Delivery", None) ]
  }

  /** Completed steps, then exactly one current step, then upcoming ones. */
  predicate WellShaped(steps: seq<Step>) {
    exists c :: 0 <= c < |steps| && steps[c].status == Current
      && (forall i :: 0 <= i < c ==> steps[i].status == Completed)
      && (forall i :: c < i < |steps| ==> steps[i].status == Upcoming)
  }

  /** The timeline is well shaped, its dated steps are a day apart in order,
      and only the step still to come has no date. */
  lemma TimelineShape(nowMs: int)
    ensures WellShaped(Timeline(nowMs))
    ensures forall i :: 0 <= i < 4 ==> (Timeline(nowMs)[i].date.None? <==> Timeline(nowMs)[i].status == Upcoming)
    ensures forall i :: 0 <= i < 3 ==> Timeline(nowMs)[i].date == Some(nowMs + i * Orders.DayMs)
    ensures Timeline(nowMs)[0].status == Completed && Timeline(nowMs)[1].status == Completed
    ensures Timeline(nowMs)[2].status == Current
    ensures Timeline(nowMs)[3].status == Upcoming && Timeline(nowMs)[3].date.None?
  {
  }

  /** What the page holds: the text typed and the id last searched for. */
  datatype Page = Page(typed: string, searched: string)

  /** The page opens with the id handed over by checkout, if any, already searched. */
  function Init(navOrderId: Option<string>): (p: Page)
    ensures p.typed == ""
    ensures navOrderId.Some? ==> p.searched == navOrderId.value
    ensures navOrderId.None? ==> p.searched == ""
  {
    Page("", if navOrderId.Some? then navOrderId.value else "")
  }

  /** Typing into the order-id input; the searched id is left alone. */
  function Type(p: Page, text: string): (r: Page)
    ensures r.typed == text && r.searched == p.searched
  {
    p.(typed := text)
  }

  /** The input is required only while nothing has been searched. */
  predicate Required(p: Page) {
    p.searched == ""
  }

  /** Submitting the form: the browser blocks it when the required input is empty;
      otherwise the typed text becomes the searched id. */
  function Submit(p: Page): (r: Page)
    ensures r.typed == p.typed
    ensures Required(p) && p.typed == "" ==> r == p
  {
    if Required(p) && p.typed == "" then p else p.(searched := p.typed)
  }

  /** Blocked or not, after a submit the searched id is what was typed, so
      submitting twice changes nothing more. */
  lemma SubmitSearchesTyped(p: Page)
    ensures Submit(p).searched == p.typed
    ensures Submit(Submit(p)) == Submit(p)
  {
  }

  /** The result panel, headed by the searched id; absent while nothing is searched. */
  function Panel(p: Page): (heading: Option<string>)
    ensures heading.Some? <==> p.searched != ""
    ensures heading.Some? ==> heading.value == p.searched
  {
    if p.searched != "" then Some(p.searched) else None
  }

  predicate PanelShown(p: Page) {
    Panel(p).Some?
  }

  /** Typing an id and submitting shows the panel for exactly that id. */
  lemma TypeAndSubmit(p: Page, text: string)
    requires text != ""
    ensures Panel(Submit(Type(p, text))) == Some(text)
  {
  }

  /** Submitting an empty input hides a panel that was shown. */
  lemma EmptySubmitHidesPanel(p: Page)
    requires PanelShown(p) && p.typed == ""
    ensures !PanelShown(Submit(p))
  {
  }

  /** The estimated delivery printed on the panel, `Date.now() + 5 * 24 * 60 * 60 * 1000`. */
  function EstimatedDelivery(nowMs: int): (d: int)
    ensures d == nowMs + Orders.DeliveryDelayMs
    ensures forall i :: 0 <= i < |Timeline(nowMs)| && Timeline(nowMs)[i].date.Some? ==> Timeline(nowMs)[i].date.value < d
  {
    nowMs + 5 * 24 * 60 * 60 * 1000
  }

  /** Read at the moment the order was placed, the panel's estimate is the instant
      stored in the order's shipping row. */
  lemma EstimateMatchesShippingRow(store: Orders.Store, data: Orders.OrderData, env: Orders.Env)
    requires Orders.ValidEnv(env) && Orders.Placed(env)
    ensures var s := Orders.CreateOrder(store, data, env).store;
      s.shipping[|s.shipping| - 1].estimatedDelivery == EstimatedDelivery(env.nowMs)
  {
  }
}

=== FILE: wrappers.dfy ===
/** Optional values: the source's `undefined`, `null` and "no value" results. */
module Wrappers {

  datatype Option<+T> = None | Some(value: T)
}
